=== FILE: README.md ===
# COD tracker: a Dafny model of its decision logic

The tracker joins Shopify cash-on-delivery (COD) orders with Correos parcel
tracking and shows the result on a dashboard. This project models the
decisions it makes along the way:

- **Status classifier** (`mapCorreosStatus`, shopify.js). An ordered list of
  keyword rules over the upper-cased Correos phrase. The first matching rule
  gives "Delivered", "In Transit" or "Returned". An empty phrase gives
  "Unknown". A phrase that matches no rule is returned unchanged.
- **Order loop** of `getShopifyOrdersAndTracking` (shopify.js). It keeps
  only COD orders and takes the first Correos fulfillment of each. It calls
  the tracking resolver once for that fulfillment and emits one record,
  whether the lookup succeeded or failed.
- **Correos lookup** (`getCorreosTrackingStatus`, correos.js). An ordered
  chain of shape matchers reads the latest event description from a body of
  varying shape. A failed request is classified into authentication
  failure, 404 not-found text, request failure, timeout, no response or
  setup error.
- **Connectivity probes** `testShopifyConnection` and `testCorreosConnection`.
- **Dashboard arithmetic** (script.js). It computes the three summary
  counters, the badge class and cell fallbacks of each row, and the query
  string of the orders request.

HTTP requests are parameters. A request is a function `fetch` from the
requested tracking number, or the shop address, to an `Http.Outcome`: a 2xx
body, an error status with its body, or a transport error. The tracking
resolver the order loop uses is a function returning `Result<string,
string>`. `JSON.stringify` is a parameter `stringify`. Template-string
conversion of JSON values (`String(v)`) is modelled in `Http.JsString`.

Modules: `Wrappers` (Option/Result), `Text` (case mapping, `includes`,
`trim`, decimal text, split/join), `Http` (JSON values, request outcomes),
`StatusMap`, `Shopify`, `Correos`, `Pipeline` (the two services composed as
the server runs them) and `Dashboard`.

Behaviour of the code worth knowing, and the members that state it:

- `testShopifyConnection` fails on every error response, including 404
  (shopify.js:150-167). `Shopify.ProbeShopify` succeeds only on a 2xx
  answer.
- "NO ENTREGADO" can never select Returned, because the "ENTREGADO" rule
  comes first (shopify.js:15-17). `StatusMap.NoEntregadoIsDelivered` proves
  this. `StatusMap.ReturnedCharacterised` shows that Returned comes only from
  "DEVUELTO", "RETORNADO" or "ENTREGA FALLIDA".
- A `null` first event or first shipment record makes the lookup read a
  property of `null` (correos.js:31, 37-39). Its own `catch` turns the
  TypeError, which has neither `response` nor `request`, into
  "Error in Correos request setup: …" (correos.js:68-69). `Correos.Interpret`
  states this.
- A description that is not text (a number or an object) makes
  `toUpperCase` throw inside the order's `try` (shopify.js:14, 88-111). The row
  then becomes a tracking error (`Pipeline.TrackingText`).
- A 404 gives the text "Tracking Not Found in Correos" (correos.js:59-60). It
  matches no keyword, so the classifier passes it through verbatim rather
  than as "Unknown" (`StatusMap.UnmatchedIsVerbatim`).

## Model

| member | source | states |
|---|---|---|
| StatusMap.Classify | shopify.js:12-20 | An absent or empty phrase gives "Unknown". Otherwise the result is one of Delivered / In Transit / Returned or the phrase unchanged. The result is "Unknown" exactly when the phrase is empty, absent, or literally "Unknown". |
| StatusMap.FirstMatching | shopify.js:14-18 | The rule chosen matches the upper-cased phrase, and no earlier rule does. None means no rule matches. |
| StatusMap.ClassifyAgreesWithAsWritten | shopify.js:13-20 | The ordered rule list gives the same answer as the source's spelled-out if-chain on every phrase. |
| StatusMap.DeliveredWins | shopify.js:15 | Any phrase whose upper-case form contains "ENTREGADO" is Delivered, whatever else it contains. |
| StatusMap.NoEntregadoIsDelivered | shopify.js:15-17 | A phrase containing "NO ENTREGADO" is Delivered, never Returned. |
| StatusMap.ReturnedCharacterised | shopify.js:15-17 | A Returned result (not a verbatim "Returned") has no delivered or early transit keyword, and contains DEVUELTO, RETORNADO or ENTREGA FALLIDA. |
| StatusMap.TransitBeatsReturned | shopify.js:16-17 | Without "ENTREGADO", an early in-transit keyword wins over any returned keyword. |
| StatusMap.ReturnedBeatsLateTransit | shopify.js:17-18 | A returned keyword wins over the late in-transit synonyms. |
| StatusMap.UnmatchedIsVerbatim | shopify.js:19-20 | A non-empty phrase matching no rule is returned unchanged. |
| StatusMap.LabelIgnoresCase | shopify.js:14 | When a rule matches, a phrase and its upper-case form get the same status, which is one of the three labels. |
| Shopify.CorreosFulfillmentSimplified | shopify.js:83-86 | The five-way company test equals "tracking number present and company missing or containing 'correos'". |
| Shopify.EmptyCompanyIsCandidate | shopify.js:84-86 | A fulfillment with a tracking number and an empty company is a candidate. |
| Shopify.FirstCorreosFulfillment | shopify.js:82-86 | Returns the first eligible fulfillment, with every earlier one ineligible. Returns None exactly when none is eligible. |
| Shopify.CustomerName | shopify.js:94 | "N/A" without a customer. Otherwise a slice of "first last" that neither starts nor ends with whitespace, with only whitespace cut before and after it. |
| Shopify.NamelessCustomerIsBlank | shopify.js:94 | A customer without name parts gives "", not "N/A". |
| Shopify.CustomerNameJoinsParts | shopify.js:94 | Name parts without surrounding whitespace appear one space apart. |
| Shopify.LookupFor | shopify.js:74-86 | An order is looked up exactly when it is COD and has an eligible fulfillment. The number looked up is never empty. |
| Shopify.RecordFor | shopify.js:74-113 | A row exists iff the order is tracked. It carries the first eligible fulfillment's number, the order's name, date and customer. A failed lookup gives "Tracking Error" with the error message as raw status. A successful lookup gives the classified phrase, with the phrase as raw status. |
| Shopify.Aggregate | shopify.js:74-118 | At most one row per order. |
| Shopify.Lookups | shopify.js:74-118 | At most one resolver call per order. |
| Shopify.AggregateAppend | shopify.js:74-118 | Rows follow input order: the rows of a + b are the rows of a followed by those of b. |
| Shopify.RowsMatchLookups | shopify.js:86-111 | One row per resolver call, in call order, each showing the number that was looked up. |
| Shopify.FailureIsolation | shopify.js:88-112 | Which orders get rows, and their tracking numbers, are the same for any two resolvers. A failure never drops a row. |
| Shopify.AggregateMembers | shopify.js:74-116 | A row is in the result iff some order of the batch yields it. |
| Shopify.UntrackedOrderDropped | shopify.js:79-115 | An order without a row, anywhere in the batch, removes exactly its row and changes nothing else. |
| Shopify.AllTrackedAllKept | shopify.js:74-118 | When every order is tracked, the result has one row per order, in order. |
| Shopify.ScanFulfillments | shopify.js:82-114 | The inner scan with `break` stops at the first eligible fulfillment. |
| Shopify.ProcessOrder | shopify.js:75-112 | One iteration yields the order's row and the number it looks up. It yields neither for a non-COD order or one without an eligible fulfillment. |
| Shopify.ProcessOrders | shopify.js:72-118 | The imperative loop, with its inner scan and `break`, produces exactly the modelled rows, in order, and exactly the modelled resolver calls. |
| Shopify.OrdersAndTracking | shopify.js:24-118 | Missing credentials fail first. A failed order request fails the batch with its error. Otherwise the result is exactly the order loop's rows (`Aggregate`) for the fetched orders, one per lookup. |
| Shopify.DetailOf | shopify.js:152-162 | The failure detail is chosen in order: the body's errors, then the "Authentication_error" text, then 401, then 403. A 401 or 403 without the first two always gets a detail. |
| Shopify.ProbeShopify | shopify.js:135-168 | Success iff credentials are set and the request answered 2xx, with the connected message. Missing credentials give a fixed failure without a request. An error status gives "Shopify API request failed: <status>." followed by the text of the detail `DetailOf` chooses. An ECONNABORTED error reports a timeout; any other error gives "Shopify connection test failed: " and its message. |
| Correos.EventDescription | correos.js:31 | Fails exactly for a null event. Otherwise the description is truthy. |
| Correos.ShipmentDescription | correos.js:37-42 | Fails exactly for a null shipment or a null first event. Otherwise the description is truthy. |
| Correos.FirstShape | correos.js:30-44 | The chosen shape recognises the body, and no earlier one does. None means no shape does. |
| Correos.ExtractDescription | correos.js:28-50 | An absent body gives "Status Not Found". A successful extraction is truthy. An unrecognised body gives itself if it is text, else "Unknown structure". |
| Correos.ExtractAgreesWithAsWritten | correos.js:28-49 | The ordered matcher list equals the source's if-chain on every body. |
| Correos.EventListWins | correos.js:30-31 | A non-empty top-level `eventos` wins over every other shape. |
| Correos.FirstEventFields | correos.js:31 | `descEvento` is preferred to `desEvento`. "No description" is used only when both are missing. |
| Correos.BareShipmentNotFound | correos.js:36-42 | A first shipment without events or `desEstado` leaves "Status Not Found". |
| Correos.ApiErrorPrefixed | correos.js:43-44 | An API error description is reported with an "Error: " prefix. |
| Correos.Interpret | correos.js:22-71 | A readable 2xx body gives exactly `ExtractDescription`'s description; a TypeError while reading it gives a setup error with that message. Auth failure occurs iff the status is 401 or 403. A 404 gives "Tracking Not Found in Correos". Other statuses fail with their code and `ErrorDetail`'s detail. Transport errors always fail: a timeout iff sent and ECONNABORTED, no response when sent otherwise, a setup error when unsent. |
| Correos.AuthMessageNamesStatus | correos.js:56-57 | Two different rejected statuses never give the same authentication message, so the message names the status. |
| Correos.Lookup | correos.js:9-71 | Missing credentials, then an empty number, fail with fixed errors independent of `fetch`. Otherwise the result is the interpretation of the answer to the trimmed number: a 404 gives "Tracking Not Found in Correos", and a 2xx body gives the extracted description. An auth failure means credentials were set and the answer was 401/403. |
| Correos.Probe | correos.js:75-108 | Success iff credentials are set and the answer is 2xx, 404 or 400. Missing credentials give a fixed failure. A 2xx gives the authenticated message, and a 404/400 the "was not found (expected)" message naming the dummy number. A 401/403 reports the authentication message. Any other status gives "Correos API request failed during test: <status> - " and the probe's detail. A timeout gives the timeout message; any other error gives "Correos connection test failed: " and its message. |
| Correos.ProbeDetailIgnoresMessage | correos.js:103 | The probe's detail is `error.descripcion`, else the body as JSON. It equals the lookup's detail except when only `message` is truthy: the lookup (line 55) then reports the message and the probe the whole body. |
| Correos.ProbeAgreesWithLookup | correos.js:52-103 | The probe passes iff the same lookup succeeds, or the answer was 2xx or 400. On an auth rejection both report the same message. |
| Pipeline.TrackingText | shopify.js:88-111 | On every description a lookup can return (a truthy one), a lookup error becomes its message, a non-text description becomes the classifier's TypeError, and only text passes. |
| Pipeline.TrackedOrders | shopify.js:24-118 | Missing Shopify credentials fail first, and a failed order request fails the batch. Otherwise the result is exactly the order loop's rows for the fetched orders, with the Correos lookup as resolver. |
| Pipeline.ResolverTextNonEmpty | correos.js:28-70 | The Correos resolver never yields empty text or an empty error message. |
| Pipeline.RecordDisplayable | shopify.js:88-111 | A row built from a non-empty answer has a non-empty raw status. Its status is a label, "Tracking Error", or the raw phrase itself. |
| Pipeline.RowsAreDisplayable | shopify.js:88-111 | Every row of the composed pipeline has a non-empty raw status and a label, "Tracking Error" or verbatim status. |
| Pipeline.UnconfiguredCorreosKeepsEveryRow | shopify.js:101-111 | Without Correos credentials every tracked order still gets a row: a tracking error with the credentials message and the number looked up. |
| Pipeline.WorkedExample | shopify.js:74-118 | A pending "Cash on Delivery (COD)" order with fulfillment ABC123 and an empty company, answered "ENTREGADO EN DOMICILIO", gives exactly one Delivered row. |
| Dashboard.KnownStatusBuckets | script.js:234-239 | Delivered and In Transit get their own counters. Returned, Tracking Error, Unknown and a missing status go to the third. |
| Dashboard.BucketIgnoresCase | script.js:234 | Counting ignores case. |
| Dashboard.Count | script.js:233-239 | No bucket counts more rows than there are. |
| Dashboard.CountsAddUp | script.js:228-242 | The three counters sum to the number of rows. |
| Dashboard.CalculateSummary | script.js:228-243 | Each counter counts the rows of its bucket, and the three sum to the number of rows. |
| Dashboard.BadgeAgreesWithSummary | script.js:217-239 | The delivered and in-transit badges coincide with their counters. The returned, error and unknown badges coincide with the third counter. |
| Dashboard.RenderRow | script.js:193-223 | No cell is blank. A non-empty order number, date or customer is shown as it is, and an empty date reads "N/A". A link appears iff there is a tracking number, and points at the Correos page for it. The badge text is the status, or "Unknown" for an empty status. The title prefers the raw status. The badge class is the one the lower-cased status selects, one of five. |
| Dashboard.RenderTable | script.js:189-225 | One rendered row per record, in order. |
| Dashboard.NamelessCustomerShownAsNotAvailable | script.js:195 | A customer without name parts is shown as "N/A". |
| Dashboard.QueryParams | script.js:141-147 | Only the set filters appear, start date before end date, with their values. |
| Dashboard.OrdersUrl | script.js:139-151 | The path gets a query only when some filter is set. The query follows a "?" after the path, and for filter values free of "&" and "=" it reads back as the filters that are set, in order. |
| Dashboard.SerializeRoundTrip | script.js:141-150 | Any parameter list reads back unchanged from its serialised form, provided its keys are non-empty and no key or value contains "&" or "=". |
| Dashboard.QueryRoundTrip | script.js:141-151 | Parsing the query string gives back the set filters in order. |

## Left out

- HTTP requests, timeouts (7 s lookups, 5 s Shopify probe), the Basic
  credentials header, and URL construction with `encodeURIComponent`. Each
  request is the `fetch` parameter; only its outcome is modelled.
- The Shopify order request and its query parameters (shopify.js:30-68),
  including the date filters with `new Date`, `setHours(23,59,59,999)` and
  `toISOString` (shopify.js:39-57). These depend on time zone and locale. The
  loop starts from the fetched order list.
- The outer Shopify error wrapping (shopify.js:120-131): the failed order
  request's message is taken as given.
- `toLocaleDateString` (shopify.js:98): the record's date is the order's
  `created_at` text unchanged.
- Logging (`console.*`): it never affects control flow.
- Full Unicode case mapping. `Text.Upper`/`Text.Lower` map ASCII and
  Latin-1 letters (which include á, é, í, ó, ú, ü, ñ) and leave other
  characters alone. Special cases such as ß → SS are not modelled.
- JSON numbers are integers (no fractions or NaN). Object key order and
  duplicate keys are not represented. `JSON.stringify` is the `stringify`
  parameter.
- Order and fulfillment fields that are not text. The model's gateway,
  gateway names, company and tracking number are all text. In the code, a
  truthy non-string `gateway` (shopify.js:75), a `null` or non-string entry
  of `payment_gateway_names` (shopify.js:76), or a truthy non-string
  `tracking_company` (shopify.js:84) throws outside the per-order `try` and
  fails the whole batch.
- Numeric tracking numbers. shopify.js:83 and :86 test only the number's
  truthiness, and correos.js:18 looks it up as `String(trackingNumber).trim()`.
  So a number is looked up by its decimal text, and the row keeps the raw
  value.
- index.js (routing, CORS, environment loading, the login endpoint).
- The browser side of script.js: DOM updates, `localStorage` login and
  logout, `fetch`, the connection-test panel, and the empty-list and
  error messages (script.js:153-182).
- Dashboard.QueryRoundTrip: stated only for date values without "&" or "=".
  `URLSearchParams` percent-encodes values; that encoding is not modelled,
  and values are serialised raw.
- Dashboard.OrdersUrl: writes the query raw. `URLSearchParams` writes a space
  as "+" and percent-encodes reserved characters; the model does neither.
- Dashboard.SerializeRoundTrip: stated only for parameters with non-empty
  keys and no "&" or "=" in keys or values, for the same reason.

=== FILE: correos.dfy ===
/** The Correos side of the tracker (correos.js): reading the latest event
    description out of a tracking response whose shape varies, classifying
    failed requests, and the Correos connectivity probe. The request itself
    is the `fetch` parameter: it maps the trimmed tracking number to how the
    request ended. Building the address and the Basic credentials header is
    outside the model. */
module Correos {
  import opened Wrappers
  import opened Text
  import opened Http

  /** The Correos client id and secret; "" when not configured. */
  datatype Credentials = Credentials(clientId: string, secret: string)

  predicate Configured(c: Credentials) {
    c.clientId != "" && c.secret != ""
  }

  /** The errors a tracking lookup raises. */
  datatype CorreosError =
    | MissingCredentials
    | MissingTrackingNumber
    | AuthFailed(status: int)
    | RequestFailed(status: int, detail: string)
    | TimedOut
    | NoResponse
      /** Raised before or outside the request, including a property read on
          a null inside the response body. */
    | SetupFailed(message: string)

  /** The message each error carries. */
  function Message(e: CorreosError): string {
    match e
    case MissingCredentials => "Correos API credentials are not set."
    case MissingTrackingNumber => "Tracking number is required."
    case AuthFailed(status) =>
      "Correos API Authentication Failed: " + IntToString(status) + ". Check Client ID and Secret."
    case RequestFailed(status, detail) =>
      "Correos API request failed: " + IntToString(status) + " - " + detail
    case TimedOut => "Correos API connection timed out."
    case NoResponse => "Correos API request made but no response received."
    case SetupFailed(message) => "Error in Correos request setup: " + message
  }

  /** The authentication message names the rejected status: two different
      statuses never give the same text. */
  lemma AuthMessageNamesStatus(s1: int, s2: int)
    ensures Message(AuthFailed(s1)) == Message(AuthFailed(s2)) ==> s1 == s2
  {
    var prefix := "Correos API Authentication Failed: ";
    var suffix := ". Check Client ID and Secret.";
    var t1, t2 := IntToString(s1), IntToString(s2);
    if Message(AuthFailed(s1)) == Message(AuthFailed(s2)) {
      var m := Message(AuthFailed(s1));
      assert m == prefix + t1 + suffix;
      assert m == prefix + t2 + suffix;
      assert t1 == m[|prefix|..|m| - |suffix|];
      assert t2 == m[|prefix|..|m| - |suffix|];
      IntToStringInjective(s1, s2);
    }
  }

  const StatusNotFound := "Status Not Found"
  const NoDescription := "No description"
  const UnknownStructure := "Unknown structure"
  const TrackingNotFound := "Tracking Not Found in Correos"

  /** The TypeError a property read on null raises. */
  function NullRead(key: string): string {
    "Cannot read properties of null (reading '" + key + "')"
  }

  // ---------------------------------------------------------------------
  // Reading the description out of a response body
  // ---------------------------------------------------------------------

  /** An extraction step: the description, or the message of the TypeError
      the step raised. */
  type Extraction = Result<Json, string>

  /** `ev.descEvento || ev.desEvento || "No description"` for the first
      event of a list. */
  function EventDescription(ev: Json): (r: Extraction)
    ensures r.Failure? <==> ev.JNull?
    ensures r.Success? ==> Truthy(r.value)
  {
    if ev.JNull? then Failure(NullRead("descEvento"))
    else Success(Or(Or(Get(ev, "descEvento"), Get(ev, "desEvento")), JStr(NoDescription)))
  }

  /** The first shipment record: its first event, else its `desEstado`, else
      nothing found. */
  function ShipmentDescription(envio: Json): (r: Extraction)
    ensures r.Failure? <==> envio.JNull? || (IsNonEmptyArray(Get(envio, "eventos")) && Get(envio, "eventos").items[0].JNull?)
    ensures r.Success? ==> Truthy(r.value)
  {
    if envio.JNull? then Failure(NullRead("eventos"))
    else
      var evs := Get(envio, "eventos");
      if Truthy(evs) && IsNonEmptyArray(evs) then EventDescription(evs.items[0])
      else if Truthy(Get(envio, "desEstado")) then Success(Get(envio, "desEstado"))
      else Success(JStr(StatusNotFound))
  }

  /** A shape matcher: None when the body does not have its shape. */
  type Matcher = Json -> Option<Extraction>

  /** A non-empty top-level `eventos` list. */
  function MatchEventList(data: Json): Option<Extraction> {
    var evs := Get(data, "eventos");
    if IsNonEmptyArray(evs) then Some(EventDescription(evs.items[0])) else None
  }

  /** A top-level `descEvento` or `desEvento`. */
  function MatchTopEvent(data: Json): Option<Extraction> {
    var d := Or(Get(data, "descEvento"), Get(data, "desEvento"));
    if Truthy(d) then Some(Success(d)) else None
  }

  /** A nested `evento` object with a description. */
  function MatchNestedEvent(data: Json): Option<Extraction> {
    var ev := Get(data, "evento");
    var d := Or(Get(ev, "descEvento"), Get(ev, "desEvento"));
    if Truthy(ev) && Truthy(d) then Some(Success(d)) else None
  }

  /** A non-empty `datosEnvios` list of shipment records. */
  function MatchShipments(data: Json): Option<Extraction> {
    var ds := Get(data, "datosEnvios");
    if Truthy(ds) && IsNonEmptyArray(ds) then Some(ShipmentDescription(ds.items[0])) else None
  }

  /** An API error object with a `descripcion`. */
  function MatchApiError(data: Json): Option<Extraction> {
    var err := Get(data, "error");
    var d := Get(err, "descripcion");
    if Truthy(err) && Truthy(d) then Some(Success(JStr("Error: " + JsString(d)))) else None
  }

  /** The shapes, in the order they are tried. */
  const Matchers: seq<Matcher> := [MatchEventList, MatchTopEvent, MatchNestedEvent, MatchShipments, MatchApiError]

  /** The position of the first matcher that recognises `data`. */
  function FirstShape(ms: seq<Matcher>, data: Json): (r: Option<nat>)
    ensures r.Some? ==> r.value < |ms| && ms[r.value](data).Some?
    ensures r.Some? ==> forall k :: 0 <= k < r.value ==> ms[k](data).None?
    ensures r.None? ==> forall k :: 0 <= k < |ms| ==> ms[k](data).None?
  {
    if ms == [] then None
    else if ms[0](data).Some? then Some(0)
    else
      match FirstShape(ms[1..], data)
      case None => None
      case Some(j) => Some(j + 1)
  }

  /** The latest event description of a successful response: nothing found
      for an absent body; else what the first recognised shape gives; else
      the body itself when it is text, or "Unknown structure". */
  function ExtractDescription(data: Json): (r: Extraction)
    ensures !Truthy(data) ==> r == Success(JStr(StatusNotFound))
    ensures r.Success? ==> Truthy(r.value)
    ensures Truthy(data) && (forall k :: 0 <= k < |Matchers| ==> Matchers[k](data).None?) ==>
              r == Success(if data.JStr? then data else JStr(UnknownStructure))
  {
    if !Truthy(data) then Success(JStr(StatusNotFound))
    else
      match FirstShape(Matchers, data)
      case Some(k) =>
        assert Matchers[k] in {MatchEventList, MatchTopEvent, MatchNestedEvent, MatchShipments, MatchApiError};
        Matchers[k](data).value
      case None => Success(if data.JStr? then data else JStr(UnknownStructure))
  }

  /** The extraction exactly as the source spells it out: one `if ... else
      if` chain. */
  function ExtractAsWritten(data: Json): Extraction {
    if !Truthy(data) then Success(JStr("Status Not Found"))
    else if IsNonEmptyArray(Get(data, "eventos")) then
      var first := Get(data, "eventos").items[0];
      if first.JNull? then Failure(NullRead("descEvento"))
      else Success(Or(Or(Get(first, "descEvento"), Get(first, "desEvento")), JStr("No description")))
    else if Truthy(Get(data, "descEvento")) || Truthy(Get(data, "desEvento")) then
      Success(Or(Get(data, "descEvento"), Get(data, "desEvento")))
    else if Truthy(Get(data, "evento"))
            && (Truthy(Get(Get(data, "evento"), "descEvento")) || Truthy(Get(Get(data, "evento"), "desEvento"))) then
      Success(Or(Get(Get(data, "evento"), "descEvento"), Get(Get(data, "evento"), "desEvento")))
    else if Truthy(Get(data, "datosEnvios")) && IsNonEmptyArray(Get(data, "datosEnvios")) then
      var envio := Get(data, "datosEnvios").items[0];
      if envio.JNull? then Failure(NullRead("eventos"))
      else if Truthy(Get(envio, "eventos")) && IsNonEmptyArray(Get(envio, "eventos")) then
        var first := Get(envio, "eventos").items[0];
        if first.JNull? then Failure(NullRead("descEvento"))
        else Success(Or(Or(Get(first, "descEvento"), Get(first, "desEvento")), JStr("No description")))
      else if Truthy(Get(envio, "desEstado")) then Success(Get(envio, "desEstado"))
      else Success(JStr("Status Not Found"))
    else if Truthy(Get(data, "error")) && Truthy(Get(Get(data, "error"), "descripcion")) then
      Success(JStr("Error: " + JsString(Get(Get(data, "error"), "descripcion"))))
    else if data.JStr? then Success(data)
    else Success(JStr("Unknown structure"))
  }

  /** The ordered matcher list and the spelled-out chain agree on every
      body. */
  lemma ExtractAgreesWithAsWritten(data: Json)
    ensures ExtractDescription(data) == ExtractAsWritten(data)
  {
    assert Matchers[0] == MatchEventList && Matchers[1] == MatchTopEvent;
    assert Matchers[2] == MatchNestedEvent && Matchers[3] == MatchShipments;
    assert Matchers[4] == MatchApiError;
  }

  /** A non-empty top-level event list wins over every other shape the body
      may also have. */
  lemma EventListWins(data: Json)
    requires IsNonEmptyArray(Get(data, "eventos"))
    ensures ExtractDescription(data) == EventDescription(Get(data, "eventos").items[0])
  {
    ExtractAgreesWithAsWritten(data);
  }

  /** The first event's `descEvento` is preferred to its `desEvento`, and
      "No description" is given only when it has neither. */
  lemma FirstEventFields(data: Json, ev: map<string, Json>)
    requires IsNonEmptyArray(Get(data, "eventos")) && Get(data, "eventos").items[0] == JObj(ev)
    ensures Truthy(Get(JObj(ev), "descEvento")) ==>
              ExtractDescription(data) == Success(Get(JObj(ev), "descEvento"))
    ensures !Truthy(Get(JObj(ev), "descEvento")) && Truthy(Get(JObj(ev), "desEvento")) ==>
              ExtractDescription(data) == Success(Get(JObj(ev), "desEvento"))
    ensures !Truthy(Get(JObj(ev), "descEvento")) && !Truthy(Get(JObj(ev), "desEvento")) ==>
              ExtractDescription(data) == Success(JStr(NoDescription))
  {
    EventListWins(data);
  }

  /** A shipment record with neither events nor `desEstado` leaves the
      default "Status Not Found", whatever later shapes the body has. */
  lemma BareShipmentNotFound(data: Json, envio: Json)
    requires !IsNonEmptyArray(Get(data, "eventos"))
    requires !Truthy(Get(data, "descEvento")) && !Truthy(Get(data, "desEvento"))
    requires !Truthy(Get(Get(data, "evento"), "descEvento")) && !Truthy(Get(Get(data, "evento"), "desEvento"))
    requires IsNonEmptyArray(Get(data, "datosEnvios")) && Get(data, "datosEnvios").items[0] == envio
    requires envio.JObj? && !IsNonEmptyArray(Get(envio, "eventos")) && !Truthy(Get(envio, "desEstado"))
    ensures ExtractDescription(data) == Success(JStr(StatusNotFound))
  {
    ExtractAgreesWithAsWritten(data);
  }

  /** An API error object is reported with the "Error: " prefix when no
      earlier shape is present. */
  lemma ApiErrorPrefixed(data: Json, description: string)
    requires !IsNonEmptyArray(Get(data, "eventos"))
    requires !Truthy(Get(data, "descEvento")) && !Truthy(Get(data, "desEvento"))
    requires !Truthy(Get(Get(data, "evento"), "descEvento")) && !Truthy(Get(Get(data, "evento"), "desEvento"))
    requires !IsNonEmptyArray(Get(data, "datosEnvios"))
    requires Get(Get(data, "error"), "descripcion") == JStr(description) && description != ""
    ensures ExtractDescription(data) == Success(JStr("Error: " + description))
  {
    ExtractAgreesWithAsWritten(data);
  }

  // ---------------------------------------------------------------------
  // Classifying how the request ended
  // ---------------------------------------------------------------------

  /** The detail of a failed request: the body's `error.descripcion`, else
      its `message`, else the whole body as JSON (`stringify`). */
  function ErrorDetail(data: Json, stringify: Json -> string): string {
    var descripcion := Get(Get(data, "error"), "descripcion");
    var message := Get(data, "message");
    if Truthy(descripcion) then JsString(descripcion)
    else if Truthy(message) then JsString(message)
    else stringify(data)
  }

  predicate IsAuthRejection(o: Outcome) {
    o.ErrorStatus? && (o.status == 401 || o.status == 403)
  }

  /** The request's end as the lookup reports it: a description, or the
      error it raises. A 404 is not an error but the not-found text. */
  function Interpret(o: Outcome, stringify: Json -> string): (r: Result<Json, CorreosError>)
    ensures r.Success? ==> Truthy(r.value)
    ensures (r.Failure? && r.error.AuthFailed?) <==> IsAuthRejection(o)
    ensures r.Failure? && r.error.AuthFailed? ==> r.error.status == o.status
    ensures o.ErrorStatus? && o.status == 404 ==> r == Success(JStr(TrackingNotFound))
    ensures o.ErrorStatus? && o.status != 404 ==> r.Failure?
    ensures o.ErrorStatus? && !IsAuthRejection(o) && o.status != 404 ==>
              r.Failure? && r.error.RequestFailed? && r.error.status == o.status
    ensures o.Transport? ==> r.Failure? && (r.error == TimedOut <==> o.sent && o.code == TimeoutCode)
    ensures o.Transport? && !o.sent ==> r == Failure(SetupFailed(o.message))
    ensures o.Ok? ==> (r.Success? <==> ExtractDescription(o.data).Success?)
    ensures o.Ok? && ExtractDescription(o.data).Success? ==> r == Success(ExtractDescription(o.data).value)
    ensures o.Ok? && ExtractDescription(o.data).Failure? ==>
              r == Failure(SetupFailed(ExtractDescription(o.data).error))
    ensures o.ErrorStatus? && !IsAuthRejection(o) && o.status != 404 ==>
              r == Failure(RequestFailed(o.status, ErrorDetail(o.data, stringify)))
    ensures o.Transport? && o.sent && o.code != TimeoutCode ==> r == Failure(NoResponse)
  {
    match o
    case Ok(data) =>
      (match ExtractDescription(data)
       case Success(v) => Success(v)
       case Failure(typeError) => Failure(SetupFailed(typeError)))
    case ErrorStatus(status, data) =>
      if status == 401 || status == 403 then Failure(AuthFailed(status))
      else if status == 404 then Success(JStr(TrackingNotFound))
      else Failure(RequestFailed(status, ErrorDetail(data, stringify)))
    case Transport(sent, code, message) =>
      if sent then
        if code == TimeoutCode then Failure(TimedOut) else Failure(NoResponse)
      else Failure(SetupFailed(message))
  }

  /** `getCorreosTrackingStatus`: missing credentials or an empty tracking
      number fail before any request is made (the result is the same for
      every `fetch`); otherwise the trimmed number is requested and the
      outcome interpreted. */
  function Lookup(cred: Credentials, tracking: string, fetch: string -> Outcome, stringify: Json -> string)
    : (r: Result<Json, CorreosError>)
    ensures !Configured(cred) ==> r == Failure(MissingCredentials)
    ensures Configured(cred) && tracking == "" ==> r == Failure(MissingTrackingNumber)
    ensures r.Success? ==> Truthy(r.value)
    ensures r.Failure? && r.error.AuthFailed? ==> Configured(cred) && IsAuthRejection(fetch(Trim(tracking)))
    ensures Configured(cred) && tracking != "" ==> r == Interpret(fetch(Trim(tracking)), stringify)
    ensures (Configured(cred) && tracking != "" && fetch(Trim(tracking)).ErrorStatus?
             && fetch(Trim(tracking)).status == 404) ==> r == Success(JStr(TrackingNotFound))
    ensures Configured(cred) && tracking != "" && fetch(Trim(tracking)).Ok? ==>
              (r.Success? <==> ExtractDescription(fetch(Trim(tracking)).data).Success?)
              && (r.Success? ==> r.value == ExtractDescription(fetch(Trim(tracking)).data).value)
  {
    if !Configured(cred) then Failure(MissingCredentials)
    else if tracking == "" then Failure(MissingTrackingNumber)
    else Interpret(fetch(Trim(tracking)), stringify)
  }

  // ---------------------------------------------------------------------
  // Connectivity probe
  // ---------------------------------------------------------------------

  /** A tracking number that does not exist, used to test the credentials. */
  const DummyTrackingNumber := "TEST000000000ES"

  const ProbeCredentialsMissing := "Correos API credentials (Client ID or Secret) are not set in environment variables."
  const ProbeAuthenticated := "Successfully authenticated with Correos API (dummy tracking number used for test)."
  const ProbeNotFoundExpected :=
    "Authenticated with Correos API. Test tracking number " + DummyTrackingNumber + " was not found (expected)."

  /** The detail a failed probe reports: the body's `error.descripcion`,
      else the whole body as JSON. Unlike a lookup it never falls back to
      the body's `message`. */
  function ProbeErrorDetail(data: Json, stringify: Json -> string): string {
    var descripcion := Get(Get(data, "error"), "descripcion");
    if Truthy(descripcion) then JsString(descripcion) else stringify(data)
  }

  /** The probe and the lookup report the same detail except when the body
      has no `error.descripcion` but a truthy `message`: the lookup then
      reports the message and the probe the whole body. */
  lemma ProbeDetailIgnoresMessage(data: Json, stringify: Json -> string)
    ensures Truthy(Get(Get(data, "error"), "descripcion")) ==>
              ProbeErrorDetail(data, stringify) == ErrorDetail(data, stringify)
    ensures !Truthy(Get(Get(data, "error"), "descripcion")) && Truthy(Get(data, "message")) ==>
              ProbeErrorDetail(data, stringify) == stringify(data)
              && ErrorDetail(data, stringify) == JsString(Get(data, "message"))
    ensures !Truthy(Get(Get(data, "error"), "descripcion")) && !Truthy(Get(data, "message")) ==>
              ProbeErrorDetail(data, stringify) == ErrorDetail(data, stringify) == stringify(data)
  {
  }

  /** `testCorreosConnection`: never raises. Success when the dummy lookup
      returns, or is refused as not found (404) or badly formatted (400);
      failure without credentials (and then without a request), on an
      authentication rejection, any other status, a timeout or any other
      error. */
  function Probe(cred: Credentials, fetch: string -> Outcome, stringify: Json -> string): (r: ProbeResult)
    ensures r.success <==>
              Configured(cred)
              && (fetch(DummyTrackingNumber).Ok?
                  || (fetch(DummyTrackingNumber).ErrorStatus?
                      && (fetch(DummyTrackingNumber).status == 404 || fetch(DummyTrackingNumber).status == 400)))
    ensures !Configured(cred) ==> r == ProbeResult(false, ProbeCredentialsMissing)
    ensures Configured(cred) && IsAuthRejection(fetch(DummyTrackingNumber)) ==>
              r == ProbeResult(false, Message(AuthFailed(fetch(DummyTrackingNumber).status)))
    ensures Configured(cred) && fetch(DummyTrackingNumber).Ok? ==> r.message == ProbeAuthenticated
    ensures Configured(cred) && fetch(DummyTrackingNumber).ErrorStatus? ==>
              var o := fetch(DummyTrackingNumber);
              && (o.status == 404 || o.status == 400 ==> r.message == ProbeNotFoundExpected)
              && (!IsAuthRejection(o) && o.status != 404 && o.status != 400 ==>
                    r.message == "Correos API request failed during test: " + IntToString(o.status)
                                 + " - " + ProbeErrorDetail(o.data, stringify))
    ensures Configured(cred) && fetch(DummyTrackingNumber).Transport? ==>
              var o := fetch(DummyTrackingNumber);
              && (o.code == TimeoutCode ==> r.message == Message(TimedOut))
              && (o.code != TimeoutCode ==> r.message == "Correos connection test failed: " + o.message)
  {
    if !Configured(cred) then ProbeResult(false, ProbeCredentialsMissing)
    else
      match fetch(DummyTrackingNumber)
      case Ok(_) => ProbeResult(true, ProbeAuthenticated)
      case ErrorStatus(status, data) =>
        if status == 404 || status == 400 then ProbeResult(true, ProbeNotFoundExpected)
        else if status == 401 || status == 403 then
          ProbeResult(false, "Correos API Authentication Failed: " + IntToString(status)
                             + ". Check Client ID and Secret.")
        else
          ProbeResult(false, "Correos API request failed during test: " + IntToString(status)
                             + " - " + ProbeErrorDetail(data, stringify))
      case Transport(_, code, message) =>
        if code == TimeoutCode then ProbeResult(false, "Correos API connection timed out.")
        else ProbeResult(false, "Correos connection test failed: " + message)
  }

  /** A lookup of the dummy number interprets the probe's own answer. */
  lemma DummyLookupInterprets(cred: Credentials, fetch: string -> Outcome, stringify: Json -> string)
    requires Configured(cred)
    ensures Lookup(cred, DummyTrackingNumber, fetch, stringify) == Interpret(fetch(DummyTrackingNumber), stringify)
  {
    TrimFixed(DummyTrackingNumber);
  }

  lemma ProbeSuccessAgrees(cred: Credentials, fetch: string -> Outcome, stringify: Json -> string)
    requires Configured(cred)
    ensures var o := fetch(DummyTrackingNumber);
            Probe(cred, fetch, stringify).success <==>
              (Interpret(o, stringify).Success? || o.Ok? || (o.ErrorStatus? && o.status == 400))
  {
  }

  lemma ProbeAuthMessageAgrees(cred: Credentials, fetch: string -> Outcome, stringify: Json -> string)
    requires Configured(cred)
    ensures var r := Interpret(fetch(DummyTrackingNumber), stringify);
            r.Failure? && r.error.AuthFailed? ==> Probe(cred, fetch, stringify) == ProbeResult(false, Message(r.error))
  {
  }

  /** The probe and a lookup of the dummy number read the same answer in
      the same way except for a 400 and for a successful body the lookup
      cannot read: the probe passes exactly when the lookup does not raise,
      when the number was refused as malformed (400), or when any 2xx
      answer came back; and it fails with the lookup's own message when the
      lookup raises an authentication failure. */
  lemma ProbeAgreesWithLookup(cred: Credentials, fetch: string -> Outcome, stringify: Json -> string)
    requires Configured(cred)
    ensures var lookup := Lookup(cred, DummyTrackingNumber, fetch, stringify);
            var o := fetch(DummyTrackingNumber);
            && (Probe(cred, fetch, stringify).success <==>
                  (lookup.Success? || o.Ok? || (o.ErrorStatus? && o.status == 400)))
            && (lookup.Failure? && lookup.error.AuthFailed? ==>
                  Probe(cred, fetch, stringify) == ProbeResult(false, Message(lookup.error)))
  {
    DummyLookupInterprets(cred, fetch, stringify);
    ProbeSuccessAgrees(cred, fetch, stringify);
    ProbeAuthMessageAgrees(cred, fetch, stringify);
  }
}

=== FILE: dashboard.dfy ===
/** The pure part of the dashboard page (script.js): the three summary
    counters, the status badge and cell fallbacks of each table row, and the
    query string of the orders request. Writing to the page is outside the
    model; rows are the records the server sends, a missing field being "". */
module Dashboard {
  import opened Wrappers
  import opened Text
  import Shopify

  // ---------------------------------------------------------------------
  // Summary counters
  // ---------------------------------------------------------------------

  /** The three summary counters a row can fall into. */
  datatype Bucket = DeliveredBucket | InTransitBucket | ReturnedOrErrorBucket

  /** The summary switch on the lower-cased status: everything that is not
      delivered or in transit, missing status included, lands in the third
      counter. */
  function BucketOf(status: string): Bucket {
    var key := Lower(status);
    if key == "delivered" then DeliveredBucket
    else if key == "in transit" then InTransitBucket
    else ReturnedOrErrorBucket
  }

  /** How the statuses the server produces are counted. */
  lemma KnownStatusBuckets()
    ensures BucketOf("Delivered") == DeliveredBucket
    ensures BucketOf("In Transit") == InTransitBucket
    ensures BucketOf("Returned") == ReturnedOrErrorBucket
    ensures BucketOf("Tracking Error") == ReturnedOrErrorBucket
    ensures BucketOf("Unknown") == ReturnedOrErrorBucket
    ensures BucketOf("") == ReturnedOrErrorBucket
  {
    assert Lower("Delivered") == "delivered";
    assert Lower("In Transit") == "in transit";
    assert Lower("Returned") == "returned";
    assert Lower("Tracking Error") == "tracking error";
    assert Lower("Unknown") == "unknown";
  }

  /** Counting ignores case. */
  lemma BucketIgnoresCase(status: string)
    ensures BucketOf(Lower(status)) == BucketOf(status)
  {
    var l := Lower(status);
    assert Lower(l) == l by {
      forall i | 0 <= i < |l| ensures LowerChar(l[i]) == l[i] {
        assert !IsSimpleUpper(LowerChar(status[i]));
      }
    }
  }

  datatype Summary = Summary(delivered: nat, inTransit: nat, returned: nat)

  /** The number of rows whose status falls into `b`. */
  function Count(rows: seq<Shopify.TrackedRecord>, b: Bucket): (n: nat)
    ensures n <= |rows|
  {
    if rows == [] then 0
    else Count(rows[..|rows| - 1], b) + (if BucketOf(rows[|rows| - 1].status) == b then 1 else 0)
  }

  /** Every row is counted exactly once. */
  lemma {:induction false} CountsAddUp(rows: seq<Shopify.TrackedRecord>)
    ensures Count(rows, DeliveredBucket) + Count(rows, InTransitBucket) + Count(rows, ReturnedOrErrorBucket) == |rows|
  {
    if rows != [] {
      CountsAddUp(rows[..|rows| - 1]);
    }
  }

  /** `calculateAndDisplaySummary`: one pass over the rows. */
  method CalculateSummary(rows: seq<Shopify.TrackedRecord>) returns (s: Summary)
    ensures s.delivered == Count(rows, DeliveredBucket)
    ensures s.inTransit == Count(rows, InTransitBucket)
    ensures s.returned == Count(rows, ReturnedOrErrorBucket)
    ensures s.delivered + s.inTransit + s.returned == |rows|
  {
    var delivered, inTransit, returned := 0, 0, 0;
    for i := 0 to |rows|
      invariant delivered == Count(rows[..i], DeliveredBucket)
      invariant inTransit == Count(rows[..i], InTransitBucket)
      invariant returned == Count(rows[..i], ReturnedOrErrorBucket)
    {
      assert rows[..i + 1][..i] == rows[..i];
      match BucketOf(rows[i].status)
      case DeliveredBucket => delivered := delivered + 1;
      case InTransitBucket => inTransit := inTransit + 1;
      case ReturnedOrErrorBucket => returned := returned + 1;
    }
    assert rows[..|rows|] == rows;
    CountsAddUp(rows);
    s := Summary(delivered, inTransit, returned);
  }

  // ---------------------------------------------------------------------
  // Table rows
  // ---------------------------------------------------------------------

  const NotAvailable := "N/A"
  const CorreosLinkPrefix := "https://www.correos.es/es/es/herramientas/localizador/envios/detalle?tracking-number="

  /** The badge class of the table's status switch. */
  function BadgeClass(status: string): string {
    var key := Lower(status);
    if key == "delivered" then "status-delivered"
    else if key == "in transit" then "status-in-transit"
    else if key == "returned" then "status-returned"
    else if key == "tracking error" then "status-error"
    else "status-unknown"
  }

  /** The badge colour and the summary counter agree on every status. */
  lemma BadgeAgreesWithSummary(status: string)
    ensures BadgeClass(status) == "status-delivered" <==> BucketOf(status) == DeliveredBucket
    ensures BadgeClass(status) == "status-in-transit" <==> BucketOf(status) == InTransitBucket
    ensures BucketOf(status) == ReturnedOrErrorBucket <==>
              BadgeClass(status) in {"status-returned", "status-error", "status-unknown"}
  {
  }

  datatype TrackingCell = TrackingLink(href: string, text: string) | TrackingMissing

  /** The status badge: one status class, its text and its hover title. */
  datatype Badge = Badge(statusClass: string, text: string, title: string)

  datatype RowView = RowView(
    orderNumber: string,
    orderDate: string,
    customer: string,
    tracking: TrackingCell,
    badge: Badge)

  function OrNotAvailable(s: string): (r: string)
    ensures r != ""
    ensures s != "" ==> r == s
  {
    if s != "" then s else NotAvailable
  }

  /** One table row: empty cells read "N/A", a tracking number becomes a
      link to the Correos tracking page, the badge text falls back to
      "Unknown" and its title prefers the raw carrier phrase. */
  function RenderRow(r: Shopify.TrackedRecord): (v: RowView)
    ensures v.orderNumber != "" && v.orderDate != "" && v.customer != ""
    ensures r.orderNumber != "" ==> v.orderNumber == r.orderNumber
    ensures r.orderDate != "" ==> v.orderDate == r.orderDate
    ensures r.customer != "" ==> v.customer == r.customer
    ensures r.orderDate == "" ==> v.orderDate == NotAvailable
    ensures v.orderNumber == NotAvailable <==> r.orderNumber == "" || r.orderNumber == NotAvailable
    ensures v.customer == NotAvailable <==> r.customer == "" || r.customer == NotAvailable
    ensures v.tracking.TrackingLink? <==> r.tracking != ""
    ensures v.tracking.TrackingLink? ==>
              v.tracking.text == r.tracking && v.tracking.href == CorreosLinkPrefix + r.tracking
    ensures v.badge.text != "" && (r.status != "" ==> v.badge.text == r.status)
    ensures r.status == "" ==> v.badge.text == "Unknown"
    ensures v.badge.title == (if r.rawStatus != "" then r.rawStatus else r.status)
    ensures v.badge.statusClass == BadgeClass(r.status)
    ensures v.badge.statusClass in {"status-delivered", "status-in-transit", "status-returned",
                                    "status-error", "status-unknown"}
  {
    RowView(
      OrNotAvailable(r.orderNumber),
      OrNotAvailable(r.orderDate),
      OrNotAvailable(r.customer),
      if r.tracking != "" then TrackingLink(CorreosLinkPrefix + r.tracking, r.tracking) else TrackingMissing,
      Badge(BadgeClass(r.status),
            if r.status != "" then r.status else "Unknown",
            if r.rawStatus != "" then r.rawStatus else r.status))
  }

  /** `populateTable`: one row per record, in order. */
  function RenderTable(rows: seq<Shopify.TrackedRecord>): (views: seq<RowView>)
    ensures |views| == |rows|
    ensures forall i :: 0 <= i < |rows| ==> views[i] == RenderRow(rows[i])
  {
    seq(|rows|, i requires 0 <= i < |rows| => RenderRow(rows[i]))
  }

  /** A customer record with no name parts is sent as "" and shown as "N/A",
      just like an order without a customer. */
  lemma NamelessCustomerShownAsNotAvailable(r: Shopify.TrackedRecord)
    requires r.customer == Shopify.CustomerName(Some(Shopify.Customer("", "")))
    ensures RenderRow(r).customer == NotAvailable
  {
    Shopify.NamelessCustomerIsBlank();
  }

  // ---------------------------------------------------------------------
  // The orders request
  // ---------------------------------------------------------------------

  const OrdersPath := "/api/orders"

  /** The date filters that are set, start date first. */
  function QueryParams(startDate: string, endDate: string): (ps: seq<(string, string)>)
    ensures |ps| == (if startDate != "" then 1 else 0) + (if endDate != "" then 1 else 0)
    ensures forall i :: 0 <= i < |ps| ==> ps[i].1 != ""
    ensures forall i :: 0 <= i < |ps| ==>
              (ps[i].0 == "startDate" && ps[i].1 == startDate) || (ps[i].0 == "endDate" && ps[i].1 == endDate)
    ensures |ps| == 2 ==> ps[0].0 == "startDate" && ps[1].0 == "endDate"
  {
    (if startDate != "" then [("startDate", startDate)] else [])
    + (if endDate != "" then [("endDate", endDate)] else [])
  }

  function Pair(p: (string, string)): string {
    p.0 + "=" + p.1
  }

  /** `params.toString()`: "" for no parameters. */
  function Serialize(ps: seq<(string, string)>): string {
    if ps == [] then "" else Join(seq(|ps|, i requires 0 <= i < |ps| => Pair(ps[i])), '&')
  }

  /** The address the dashboard requests: a "?" and the query only when
      some date filter is set. */
  function OrdersUrl(startDate: string, endDate: string): (url: string)
    ensures url == OrdersPath <==> startDate == "" && endDate == ""
    ensures OrdersPath <= url
    ensures url != OrdersPath ==>
              && url[..|OrdersPath| + 1] == OrdersPath + "?"
              && (PlainQueryText(startDate) && PlainQueryText(endDate) ==>
                    ParseQuery(url[|OrdersPath| + 1..]) == QueryParams(startDate, endDate))
  {
    var q := Serialize(QueryParams(startDate, endDate));
    if QueryParams(startDate, endDate) != [] then
      var url := OrdersPath + "?" + q;
      assert url[..|OrdersPath| + 1] == OrdersPath + "?";
      assert url[|OrdersPath| + 1..] == q;
      QueryRoundTripWhenPlain(startDate, endDate);
      url
    else OrdersPath
  }

  /** Splits one `key=value` piece at its first "=". */
  function ParsePair(piece: string): (string, string) {
    if '=' in piece then
      var i := IndexOf(piece, '=');
      (piece[..i], piece[i + 1..])
    else (piece, "")
  }

  /** Reads a query string back into its parameters. */
  function ParseQuery(q: string): seq<(string, string)> {
    if q == "" then []
    else
      var pieces := Split(q, '&');
      seq(|pieces|, i requires 0 <= i < |pieces| => ParsePair(pieces[i]))
  }

  predicate PlainQueryText(s: string) {
    '&' !in s && '=' !in s
  }

  lemma ParsePairOfPair(k: string, v: string)
    requires PlainQueryText(k)
    ensures ParsePair(Pair((k, v))) == (k, v)
  {
    var piece := k + "=" + v;
    IndexOfAfterPrefix(k, '=', v);
    assert piece[..|k|] == k;
    assert piece[|k| + 1..] == v;
  }

  /** Parameters whose keys are non-empty and whose keys and values are
      free of "&" and "=". */
  predicate PlainParams(ps: seq<(string, string)>) {
    forall i :: 0 <= i < |ps| ==> ps[i].0 != "" && PlainQueryText(ps[i].0) && PlainQueryText(ps[i].1)
  }

  /** Reading a serialised parameter list back gives the list. */
  lemma SerializeRoundTrip(ps: seq<(string, string)>)
    requires PlainParams(ps)
    ensures ParseQuery(Serialize(ps)) == ps
  {
    if ps != [] {
      var pieces := seq(|ps|, i requires 0 <= i < |ps| => Pair(ps[i]));
      forall k | 0 <= k < |pieces| ensures '&' !in pieces[k] {
        assert pieces[k] == ps[k].0 + "=" + ps[k].1;
      }
      SplitJoin(pieces, '&');
      JoinStartsWithFirst(pieces, '&');
      assert Serialize(ps) != "" by {
        assert |pieces[0]| > 0;
      }
      forall k | 0 <= k < |ps| ensures ParsePair(pieces[k]) == ps[k] {
        ParsePairOfPair(ps[k].0, ps[k].1);
      }
    }
  }

  lemma QueryRoundTripWhenPlain(startDate: string, endDate: string)
    ensures PlainQueryText(startDate) && PlainQueryText(endDate) ==>
              ParseQuery(Serialize(QueryParams(startDate, endDate))) == QueryParams(startDate, endDate)
  {
    if PlainQueryText(startDate) && PlainQueryText(endDate) {
      QueryRoundTrip(startDate, endDate);
    }
  }

  /** Reading the query string back gives the date filters that were set,
      in order, for date values free of "&" and "=". */
  lemma QueryRoundTrip(startDate: string, endDate: string)
    requires PlainQueryText(startDate) && PlainQueryText(endDate)
    ensures ParseQuery(Serialize(QueryParams(startDate, endDate))) == QueryParams(startDate, endDate)
  {
    SerializeRoundTrip(QueryParams(startDate, endDate));
  }
}

=== FILE: http.dfy ===
/** The loosely structured values the tracker receives from its two HTTP
    services, and the ways a request can end. */
module Http {
  import opened Text

  /** A parsed JSON body. JavaScript's `undefined` (a missing property) and
      `null` behave alike wherever the tracker reads a body, so both are
      JNull. Numbers are integers here. */
  datatype Json =
    | JNull
    | JBool(b: bool)
    | JNum(n: int)
    | JStr(s: string)
    | JArr(items: seq<Json>)
    | JObj(fields: map<string, Json>)

  /** JavaScript truthiness: null, false, 0 and "" are falsy; every array and
      object is truthy, empty or not. */
  predicate Truthy(v: Json) {
    match v
    case JNull => false
    case JBool(b) => b
    case JNum(n) => n != 0
    case JStr(s) => s != ""
    case JArr(_) => true
    case JObj(_) => true
  }

  /** `v?.key`: the property of an object, or JNull for a missing property or
      a value that is not an object. */
  function Get(v: Json, key: string): Json {
    if v.JObj? && key in v.fields then v.fields[key] else JNull
  }

  /** `a || b`. */
  function Or(a: Json, b: Json): (r: Json)
    ensures Truthy(r) <==> Truthy(a) || Truthy(b)
  {
    if Truthy(a) then a else b
  }

  /** `Array.isArray(v) && v.length > 0`. */
  predicate IsNonEmptyArray(v: Json) {
    v.JArr? && |v.items| > 0
  }

  /** `String(v)`, as template interpolation `${v}` writes a value: arrays
      join their elements with commas (null elements as empty text), objects
      all read "[object Object]". */
  function JsString(v: Json): string
    decreases v, 1
  {
    match v
    case JNull => "null"
    case JBool(b) => if b then "true" else "false"
    case JNum(n) => IntToString(n)
    case JStr(s) => s
    case JArr(items) => JoinElements(v, 0)
    case JObj(_) => "[object Object]"
  }

  /** The comma-joined text of the elements of array `v` from index `i`. */
  function JoinElements(v: Json, i: nat): string
    requires v.JArr? && i <= |v.items|
    decreases v, 0, |v.items| - i
  {
    if i == |v.items| then ""
    else
      var e := v.items[i];
      var text := if e.JNull? then "" else JsString(e);
      if i + 1 == |v.items| then text else text + "," + JoinElements(v, i + 1)
  }

  /** How one HTTP request ended, as the client library reports it. */
  datatype Outcome =
      /** A 2xx response with its body. */
    | Ok(data: Json)
      /** A response with an error status and its body. */
    | ErrorStatus(status: int, data: Json)
      /** No response: `sent` tells whether the request went out at all; the
          error's `code` (e.g. "ECONNABORTED" on timeout) and `message`. */
    | Transport(sent: bool, code: string, message: string)

  const TimeoutCode := "ECONNABORTED"

  /** What a connectivity probe reports for one service. */
  datatype ProbeResult = ProbeResult(success: bool, message: string)
}

=== FILE: pipeline.dfy ===
/** The two services put together as the server does: every Correos
    lookup of the Shopify loop goes through `getCorreosTrackingStatus`, and
    its answer through the status classifier, inside one per-order `try`. */
module Pipeline {
  import opened Wrappers
  import opened Text
  import opened Http
  import StatusMap
  import Shopify
  import Correos

  /** The TypeError the classifier raises when the lookup's description is
      not text (it calls `toUpperCase` on it). */
  const NotText := "correosStatusText.toUpperCase is not a function"

  /** What the per-order `try` makes of a lookup: its text, or the message
      of whatever was raised, by the lookup or by the classifier. A lookup
      never returns a falsy description, so the classifier's "Unknown" for
      a falsy value is outside the domain. */
  function TrackingText(lookup: Result<Json, Correos.CorreosError>): (t: Result<string, string>)
    requires lookup.Success? ==> Truthy(lookup.value)
    ensures lookup.Failure? ==> t == Failure(Correos.Message(lookup.error))
    ensures lookup.Success? ==> (t.Success? <==> lookup.value.JStr?)
    ensures t.Success? ==> lookup == Success(JStr(t.value))
  {
    match lookup
    case Failure(e) => Failure(Correos.Message(e))
    case Success(JStr(s)) => Success(s)
    case Success(_) => Failure(NotText)
  }

  /** The Correos lookup as the Shopify loop's resolver. */
  function CorreosResolver(cred: Correos.Credentials, fetch: string -> Outcome, stringify: Json -> string)
    : Shopify.Resolver
  {
    tracking => TrackingText(Correos.Lookup(cred, tracking, fetch, stringify))
  }

  /** The rows the server returns for one request. */
  function TrackedOrders(shop: Shopify.ShopifyConfig, fetched: Result<seq<Shopify.Order>, string>,
                         cred: Correos.Credentials, fetch: string -> Outcome, stringify: Json -> string)
    : (r: Result<seq<Shopify.TrackedRecord>, string>)
    ensures !Shopify.ShopifyConfigured(shop) ==> r == Failure(Shopify.CredentialsMissing)
    ensures Shopify.ShopifyConfigured(shop) && fetched.Success? ==>
              r.Success? && |r.value| == |Shopify.Lookups(fetched.value)|
    ensures Shopify.ShopifyConfigured(shop) && fetched.Failure? ==> r == Failure(fetched.error)
    ensures Shopify.ShopifyConfigured(shop) && fetched.Success? ==>
              r == Success(Shopify.Aggregate(fetched.value, CorreosResolver(cred, fetch, stringify)))
  {
    Shopify.OrdersAndTracking(shop, fetched, CorreosResolver(cred, fetch, stringify))
  }

  /** The resolver never hands the loop empty text: descriptions are
      truthy and every error message has its fixed prefix. */
  lemma ResolverTextNonEmpty(cred: Correos.Credentials, fetch: string -> Outcome,
                             stringify: Json -> string, tracking: string)
    ensures var t := CorreosResolver(cred, fetch, stringify)(tracking);
            (t.Success? ==> t.value != "") && (t.Failure? ==> t.error != "")
  {
    var lookup := Correos.Lookup(cred, tracking, fetch, stringify);
    if lookup.Failure? {
      var e := lookup.error;
      assert |Correos.Message(e)| > 0 by {
        match e
        case MissingCredentials =>
        case MissingTrackingNumber =>
        case AuthFailed(_) =>
        case RequestFailed(_, _) =>
        case TimedOut =>
        case NoResponse =>
        case SetupFailed(_) =>
      }
    }
  }

  /** A row the table can show: its raw status is never blank, and its
      status is one of the classifier's labels, a tracking error, or the
      raw phrase shown verbatim. */
  predicate Displayable(row: Shopify.TrackedRecord) {
    && row.rawStatus != ""
    && (|| row.status in {StatusMap.Delivered, StatusMap.InTransit, StatusMap.Returned,
                          Shopify.TrackingErrorStatus}
        || row.status == row.rawStatus)
  }

  /** A row built from a resolver answer that is not empty. */
  lemma RecordDisplayable(o: Shopify.Order, resolve: Shopify.Resolver, row: Shopify.TrackedRecord)
    requires Shopify.RecordFor(o, resolve) == Some(row)
    requires resolve(row.tracking).Success? ==> resolve(row.tracking).value != ""
    requires resolve(row.tracking).Failure? ==> resolve(row.tracking).error != ""
    ensures Displayable(row)
  {
  }

  /** Every row is either classified from a non-empty carrier phrase, shown
      verbatim when no rule matched, or a tracking error carrying the
      error's message. No row is ever blank. */
  lemma RowsAreDisplayable(orders: seq<Shopify.Order>, cred: Correos.Credentials,
                           fetch: string -> Outcome, stringify: Json -> string)
    ensures forall row :: row in Shopify.Aggregate(orders, CorreosResolver(cred, fetch, stringify)) ==>
              Displayable(row)
  {
    var resolve := CorreosResolver(cred, fetch, stringify);
    forall row | row in Shopify.Aggregate(orders, resolve)
      ensures Displayable(row)
    {
      Shopify.AggregateMembers(orders, resolve, row);
      var k :| 0 <= k < |orders| && Shopify.RecordFor(orders[k], resolve) == Some(row);
      ResolverTextNonEmpty(cred, fetch, stringify, row.tracking);
      RecordDisplayable(orders[k], resolve, row);
    }
  }

  /** Without Correos credentials every tracked order still gets its row, as
      a tracking error saying the credentials are missing. */
  lemma UnconfiguredCorreosKeepsEveryRow(orders: seq<Shopify.Order>, cred: Correos.Credentials,
                                         fetch: string -> Outcome, stringify: Json -> string, i: nat)
    requires !Correos.Configured(cred)
    requires i < |Shopify.Lookups(orders)|
    ensures |Shopify.Aggregate(orders, CorreosResolver(cred, fetch, stringify))| == |Shopify.Lookups(orders)|
    ensures var row := Shopify.Aggregate(orders, CorreosResolver(cred, fetch, stringify))[i];
            && row.status == Shopify.TrackingErrorStatus
            && row.rawStatus == "Correos API credentials are not set."
            && row.tracking == Shopify.Lookups(orders)[i]
  {
    var resolve := CorreosResolver(cred, fetch, stringify);
    Shopify.RowsMatchLookups(orders, resolve);
    var row := Shopify.Aggregate(orders, resolve)[i];
    Shopify.AggregateMembers(orders, resolve, row);
    var k :| 0 <= k < |orders| && Shopify.RecordFor(orders[k], resolve) == Some(row);
  }

  function ExampleOrder(name: string, createdAt: string): Shopify.Order {
    Shopify.Order(name, createdAt, "Cash on Delivery (COD)", [], "pending", None,
                  [Shopify.Fulfillment("ABC123", "")])
  }

  lemma ExampleOrderIsTracked(name: string, createdAt: string)
    ensures Shopify.LookupFor(ExampleOrder(name, createdAt)) == Some("ABC123")
  {
    var order := ExampleOrder(name, createdAt);
    assert Lower("Cash on Delivery (COD)") == "cash on delivery (cod)";
    ContainsPrefix("cash on delivery (cod)", "cash on delivery", " (cod)");
    assert Shopify.IsCod(order);
    assert Shopify.IsCorreosFulfillment(order.fulfillments[0]);
  }

  const ExamplePhrase := "ENTREGADO EN DOMICILIO"

  function ExampleBody(): Json {
    JObj(map["eventos" := JArr([JObj(map["descEvento" := JStr(ExamplePhrase)])])])
  }

  lemma ExampleDescription()
    ensures Correos.ExtractDescription(ExampleBody()) == Success(JStr(ExamplePhrase))
  {
    var body := ExampleBody();
    var event := JObj(map["descEvento" := JStr(ExamplePhrase)]);
    assert Get(body, "eventos") == JArr([event]);
    assert Get(event, "descEvento") == JStr(ExamplePhrase);
    Correos.EventListWins(body);
  }

  lemma ExampleLookup(cred: Correos.Credentials, fetch: string -> Outcome, stringify: Json -> string)
    requires Correos.Configured(cred)
    requires fetch("ABC123") == Ok(ExampleBody())
    ensures CorreosResolver(cred, fetch, stringify)("ABC123") == Success(ExamplePhrase)
  {
    ExampleDescription();
    assert Correos.Interpret(Ok(ExampleBody()), stringify) == Success(JStr(ExamplePhrase));
    TrimFixed("ABC123");
    assert Correos.Lookup(cred, "ABC123", fetch, stringify) == Success(JStr(ExamplePhrase));
  }

  lemma ExamplePhraseDelivered()
    ensures StatusMap.Classify(Some(ExamplePhrase)) == StatusMap.Delivered
  {
    assert Upper(ExamplePhrase) == ExamplePhrase;
    ContainsPrefix(ExamplePhrase, "ENTREGADO", " EN DOMICILIO");
    StatusMap.DeliveredWins(ExamplePhrase);
  }

  /** The worked example: one pending COD order whose only fulfillment has
      tracking number "ABC123" and an empty company, and a Correos answer
      whose first event reads "ENTREGADO EN DOMICILIO", give one Delivered
      row with that phrase as its raw status. */
  lemma WorkedExample(name: string, createdAt: string, cred: Correos.Credentials,
                      fetch: string -> Outcome, stringify: Json -> string)
    requires Correos.Configured(cred)
    requires fetch("ABC123") == Ok(ExampleBody())
    ensures Shopify.Aggregate([ExampleOrder(name, createdAt)], CorreosResolver(cred, fetch, stringify))
              == [Shopify.TrackedRecord(name, "N/A", "ABC123", "Delivered", ExamplePhrase, createdAt)]
  {
    var resolve := CorreosResolver(cred, fetch, stringify);
    ExampleOrderIsTracked(name, createdAt);
    ExampleLookup(cred, fetch, stringify);
    ExamplePhraseDelivered();
    Shopify.AggregateSingleton(ExampleOrder(name, createdAt), resolve);
  }
}

=== FILE: shopify.dfy ===
/** The Shopify side of the tracker (shopify.js): choosing the COD orders
    and their Correos fulfillment, turning each into one dashboard record
    with the help of a tracking resolver, and the Shopify connectivity
    probe. The HTTP request for the orders is outside the model: the loop
    starts from the list the request returned. */
module Shopify {
  import opened Wrappers
  import opened Text
  import opened Http
  import StatusMap

  // ---------------------------------------------------------------------
  // Data
  // ---------------------------------------------------------------------

  /** Customer name parts; a missing part is "". */
  datatype Customer = Customer(firstName: string, lastName: string)

  /** One shipped package. A missing tracking number or company is "". */
  datatype Fulfillment = Fulfillment(trackingNumber: string, trackingCompany: string)

  /** The order fields the tracker asks Shopify for. A missing gateway or
      financial status is "", a missing gateway-name list or fulfillment list
      is empty. `createdAt` is kept as the text Shopify sent. */
  datatype Order = Order(
    name: string,
    createdAt: string,
    gateway: string,
    paymentGatewayNames: seq<string>,
    financialStatus: string,
    customer: Option<Customer>,
    fulfillments: seq<Fulfillment>)

  /** One dashboard row. */
  datatype TrackedRecord = TrackedRecord(
    orderNumber: string,
    customer: string,
    tracking: string,
    status: string,
    rawStatus: string,
    orderDate: string)

  /** Looks up one tracking number: the carrier's phrase, or the message of
      the error the lookup raised. */
  type Resolver = string -> Result<string, string>

  const TrackingErrorStatus := "Tracking Error"
  const NoCustomer := "N/A"
  const CodMarker := "cash on delivery"
  const ManualMarker := "manual"
  const CarrierToken := "correos"

  // ---------------------------------------------------------------------
  // Selection
  // ---------------------------------------------------------------------

  /** Some entry of the payment gateway names mentions cash on delivery. */
  predicate SomeGatewayNameIsCod(names: seq<string>) {
    exists k :: 0 <= k < |names| && Contains(Lower(names[k]), CodMarker)
  }

  /** The order was paid cash on delivery: by its gateway, by one of its
      gateway names, or as a pending manual payment. */
  predicate IsCod(o: Order) {
    || Contains(Lower(o.gateway), CodMarker)
    || SomeGatewayNameIsCod(o.paymentGatewayNames)
    || (o.financialStatus == "pending" && Contains(Lower(o.gateway), ManualMarker))
  }

  /** The fulfillment has a tracking number and its company is missing or
      names Correos. */
  predicate IsCorreosFulfillment(f: Fulfillment) {
    f.trackingNumber != ""
    && (f.trackingCompany == "" || Contains(Lower(f.trackingCompany), CarrierToken))
  }

  /** The company test as the source spells it out, with its redundant
      exact-match cases. */
  predicate IsCorreosFulfillmentAsWritten(f: Fulfillment) {
    var company := if f.trackingCompany != "" then Some(Lower(f.trackingCompany)) else None;
    f.trackingNumber != ""
    && (|| company == Some("correos")
        || company.None?
        || company == Some("")
        || company == Some("correos express")
        || Contains(company.value, "correos"))
  }

  /** The exact-match cases add nothing to the `includes("correos")` test. */
  lemma CorreosFulfillmentSimplified(f: Fulfillment)
    ensures IsCorreosFulfillmentAsWritten(f) <==> IsCorreosFulfillment(f)
  {
    if f.trackingCompany != "" {
      var c := Lower(f.trackingCompany);
      if c == "correos" {
        ContainsPrefix(c, "correos", "");
      } else if c == "correos express" {
        ContainsPrefix(c, "correos", " express");
      }
    }
  }

  /** An empty company still makes a fulfillment a candidate. */
  lemma EmptyCompanyIsCandidate(tracking: string)
    requires tracking != ""
    ensures IsCorreosFulfillment(Fulfillment(tracking, ""))
  {
  }

  /** The index of the first Correos fulfillment, if there is one. */
  function FirstCorreosFulfillment(fs: seq<Fulfillment>): (r: Option<nat>)
    ensures r.Some? ==> r.value < |fs| && IsCorreosFulfillment(fs[r.value])
    ensures r.Some? ==> forall k :: 0 <= k < r.value ==> !IsCorreosFulfillment(fs[k])
    ensures r.None? <==> forall k :: 0 <= k < |fs| ==> !IsCorreosFulfillment(fs[k])
  {
    if fs == [] then None
    else if IsCorreosFulfillment(fs[0]) then Some(0)
    else
      match FirstCorreosFulfillment(fs[1..])
      case None => None
      case Some(j) => Some(j + 1)
  }

  /** The order gets a dashboard row: it is COD and has a Correos
      fulfillment. */
  predicate IsTracked(o: Order) {
    IsCod(o) && exists k :: 0 <= k < |o.fulfillments| && IsCorreosFulfillment(o.fulfillments[k])
  }

  // ---------------------------------------------------------------------
  // Records
  // ---------------------------------------------------------------------

  /** The customer column: first and last name joined by a space and
      trimmed, or "N/A" without a customer. */
  function CustomerName(c: Option<Customer>): (r: string)
    ensures c.None? ==> r == NoCustomer
    ensures c.Some? ==> r == [] || (!IsJsWhitespace(r[0]) && !IsJsWhitespace(r[|r| - 1]))
    ensures c.Some? ==>
              var full := c.value.firstName + " " + c.value.lastName;
              exists i :: (OccursAt(full, r, i)
                           && (forall k :: 0 <= k < i ==> IsJsWhitespace(full[k]))
                           && (forall k :: i + |r| <= k < |full| ==> IsJsWhitespace(full[k])))
  {
    match c
    case None => NoCustomer
    case Some(p) => Trim(p.firstName + " " + p.lastName)
  }

  /** A customer with neither name part gives an empty name, not "N/A". */
  lemma NamelessCustomerIsBlank()
    ensures CustomerName(Some(Customer("", ""))) == ""
  {
    TrimBlank(" ");
  }

  /** Name parts that carry no surrounding whitespace are kept as they are,
      one space apart. */
  lemma CustomerNameJoinsParts(first: string, last: string)
    requires first != [] && !IsJsWhitespace(first[0])
    requires last != [] && !IsJsWhitespace(last[|last| - 1])
    ensures CustomerName(Some(Customer(first, last))) == first + " " + last
  {
    TrimFixed(first + " " + last);
  }

  /** The row for an order whose fulfillment `tracking` was looked up with
      `outcome`. */
  function BuildRecord(o: Order, tracking: string, outcome: Result<string, string>): TrackedRecord {
    match outcome
    case Success(phrase) =>
      TrackedRecord(o.name, CustomerName(o.customer), tracking,
                    StatusMap.Classify(Some(phrase)), phrase, o.createdAt)
    case Failure(message) =>
      TrackedRecord(o.name, CustomerName(o.customer), tracking,
                    TrackingErrorStatus, message, o.createdAt)
  }

  /** The tracking number looked up for an order, if any. */
  function LookupFor(o: Order): (r: Option<string>)
    ensures r.Some? <==> IsTracked(o)
    ensures r.Some? ==> r.value != ""
  {
    if !IsCod(o) then None
    else
      match FirstCorreosFulfillment(o.fulfillments)
      case None => None
      case Some(k) => Some(o.fulfillments[k].trackingNumber)
  }

  /** The row an order contributes, if any: the first Correos fulfillment of
      a COD order is resolved once and becomes the row whether the lookup
      succeeds or fails. */
  function RecordFor(o: Order, resolve: Resolver): (r: Option<TrackedRecord>)
    ensures r.Some? <==> IsTracked(o)
    ensures r.Some? ==>
              && FirstCorreosFulfillment(o.fulfillments).Some?
              && r.value.tracking == o.fulfillments[FirstCorreosFulfillment(o.fulfillments).value].trackingNumber
    ensures r.Some? ==> r.value.orderNumber == o.name && r.value.orderDate == o.createdAt
                        && r.value.customer == CustomerName(o.customer)
    ensures r.Some? && resolve(r.value.tracking).Failure? ==>
              r.value.status == TrackingErrorStatus && r.value.rawStatus == resolve(r.value.tracking).error
    ensures r.Some? && resolve(r.value.tracking).Success? ==>
              r.value.rawStatus == resolve(r.value.tracking).value
              && r.value.status == StatusMap.Classify(Some(r.value.rawStatus))
  {
    match LookupFor(o)
    case None => None
    case Some(tracking) => Some(BuildRecord(o, tracking, resolve(tracking)))
  }

  function OptionToSeq<T>(x: Option<T>): seq<T> {
    match x
    case None => []
    case Some(v) => [v]
  }

  /** The loop over the orders Shopify returned: at most one row per order,
      in the orders' own order. */
  function Aggregate(orders: seq<Order>, resolve: Resolver): (rows: seq<TrackedRecord>)
    ensures |rows| <= |orders|
  {
    if orders == [] then []
    else OptionToSeq(RecordFor(orders[0], resolve)) + Aggregate(orders[1..], resolve)
  }

  /** The tracking numbers the loop hands to the resolver, in call order. */
  function Lookups(orders: seq<Order>): (calls: seq<string>)
    ensures |calls| <= |orders|
  {
    if orders == [] then []
    else OptionToSeq(LookupFor(orders[0])) + Lookups(orders[1..])
  }

  // ---------------------------------------------------------------------
  // Properties of the loop
  // ---------------------------------------------------------------------

  /** Rows keep the orders' sequence: the rows of two batches are the rows of
      the first followed by the rows of the second. */
  lemma {:induction false} AggregateAppend(a: seq<Order>, b: seq<Order>, resolve: Resolver)
    ensures Aggregate(a + b, resolve) == Aggregate(a, resolve) + Aggregate(b, resolve)
    decreases |a|
  {
    if a == [] {
      assert a + b == b;
    } else {
      assert (a + b)[0] == a[0];
      assert (a + b)[1..] == a[1..] + b;
      AggregateAppend(a[1..], b, resolve);
    }
  }

  lemma {:induction false} LookupsAppend(a: seq<Order>, b: seq<Order>)
    ensures Lookups(a + b) == Lookups(a) + Lookups(b)
    decreases |a|
  {
    if a == [] {
      assert a + b == b;
    } else {
      assert (a + b)[0] == a[0];
      assert (a + b)[1..] == a[1..] + b;
      LookupsAppend(a[1..], b);
    }
  }

  /** Rows line up with calls: as many rows as calls, the i-th row showing
      the i-th number looked up. */
  predicate ShowsCalls(rows: seq<TrackedRecord>, calls: seq<string>) {
    |rows| == |calls| && forall i :: 0 <= i < |calls| ==> rows[i].tracking == calls[i]
  }

  lemma ShowsCallsConcat(rows1: seq<TrackedRecord>, calls1: seq<string>,
                         rows2: seq<TrackedRecord>, calls2: seq<string>)
    requires ShowsCalls(rows1, calls1) && ShowsCalls(rows2, calls2)
    ensures ShowsCalls(rows1 + rows2, calls1 + calls2)
  {
    forall i | 0 <= i < |calls1 + calls2|
      ensures (rows1 + rows2)[i].tracking == (calls1 + calls2)[i]
    {
      if i >= |rows1| {
        assert (rows1 + rows2)[i] == rows2[i - |rows1|];
        assert (calls1 + calls2)[i] == calls2[i - |calls1|];
      }
    }
  }

  /** An order's row, when it has one, shows the number it looked up. */
  lemma RecordShowsLookup(o: Order, resolve: Resolver)
    ensures ShowsCalls(OptionToSeq(RecordFor(o, resolve)), OptionToSeq(LookupFor(o)))
  {
  }

  /** One row per resolver call, in call order, each row showing the
      tracking number that was looked up: the resolver is called exactly
      once for every row and never otherwise. */
  lemma {:induction false} RowsMatchLookups(orders: seq<Order>, resolve: Resolver)
    ensures |Aggregate(orders, resolve)| == |Lookups(orders)|
    ensures forall i :: 0 <= i < |Lookups(orders)| ==>
              Aggregate(orders, resolve)[i].tracking == Lookups(orders)[i]
    decreases |orders|
  {
    if orders != [] {
      RowsMatchLookups(orders[1..], resolve);
      RecordShowsLookup(orders[0], resolve);
      ShowsCallsConcat(OptionToSeq(RecordFor(orders[0], resolve)), OptionToSeq(LookupFor(orders[0])),
                       Aggregate(orders[1..], resolve), Lookups(orders[1..]));
    }
  }

  /** A failed lookup never costs an order its row: which orders get rows,
      and with which tracking numbers, does not depend on the resolver's
      answers at all. */
  lemma FailureIsolation(orders: seq<Order>, r1: Resolver, r2: Resolver)
    ensures |Aggregate(orders, r1)| == |Aggregate(orders, r2)|
    ensures forall i :: 0 <= i < |Aggregate(orders, r1)| ==>
              Aggregate(orders, r1)[i].tracking == Aggregate(orders, r2)[i].tracking
  {
    RowsMatchLookups(orders, r1);
    RowsMatchLookups(orders, r2);
  }

  /** Every row comes from an order of the batch, and every tracked order of
      the batch gives its row. */
  lemma {:induction false} AggregateMembers(orders: seq<Order>, resolve: Resolver, row: TrackedRecord)
    ensures row in Aggregate(orders, resolve) <==>
              exists i :: 0 <= i < |orders| && RecordFor(orders[i], resolve) == Some(row)
    decreases |orders|
  {
    if orders != [] {
      AggregateMembers(orders[1..], resolve, row);
      if RecordFor(orders[0], resolve) == Some(row) {
        assert row in Aggregate(orders, resolve);
      }
      var tail := orders[1..];
      if exists i :: 0 <= i < |tail| && RecordFor(tail[i], resolve) == Some(row) {
        var i :| 0 <= i < |tail| && RecordFor(tail[i], resolve) == Some(row);
        assert orders[i + 1] == tail[i];
      }
      if exists i :: 0 <= i < |orders| && RecordFor(orders[i], resolve) == Some(row) {
        var i :| 0 <= i < |orders| && RecordFor(orders[i], resolve) == Some(row);
        if i > 0 {
          assert tail[i - 1] == orders[i];
        }
      }
    }
  }

  lemma AggregateSingleton(o: Order, resolve: Resolver)
    ensures Aggregate([o], resolve) == OptionToSeq(RecordFor(o, resolve))
  {
    assert [o][1..] == [];
  }

  lemma LookupsSingleton(o: Order)
    ensures Lookups([o]) == OptionToSeq(LookupFor(o))
  {
    assert [o][1..] == [];
  }

  /** An order that gets no row, anywhere in the batch, shortens the result
      by exactly that row and changes nothing else. */
  lemma UntrackedOrderDropped(before: seq<Order>, o: Order, after: seq<Order>, resolve: Resolver)
    requires !IsTracked(o)
    ensures Aggregate(before + [o] + after, resolve) == Aggregate(before + after, resolve)
  {
    var x := before + [o];
    AggregateSingleton(o, resolve);
    assert Aggregate([o], resolve) == [];
    AggregateAppend(before, [o], resolve);
    assert Aggregate(x, resolve) == Aggregate(before, resolve);
    AggregateAppend(x, after, resolve);
    AggregateAppend(before, after, resolve);
  }

  /** `rows` holds, position by position, the rows of `orders`. */
  predicate RowPerOrder(rows: seq<TrackedRecord>, orders: seq<Order>, resolve: Resolver) {
    |rows| == |orders| && forall i :: 0 <= i < |orders| ==> Some(rows[i]) == RecordFor(orders[i], resolve)
  }

  lemma RowPerOrderConcat(rows1: seq<TrackedRecord>, orders1: seq<Order>,
                          rows2: seq<TrackedRecord>, orders2: seq<Order>, resolve: Resolver)
    requires RowPerOrder(rows1, orders1, resolve) && RowPerOrder(rows2, orders2, resolve)
    ensures RowPerOrder(rows1 + rows2, orders1 + orders2, resolve)
  {
    forall i | 0 <= i < |orders1 + orders2|
      ensures Some((rows1 + rows2)[i]) == RecordFor((orders1 + orders2)[i], resolve)
    {
      if i >= |orders1| {
        assert (rows1 + rows2)[i] == rows2[i - |rows1|];
        assert (orders1 + orders2)[i] == orders2[i - |orders1|];
      }
    }
  }

  /** When every order is tracked, every order gets its row, in order. */
  lemma {:induction false} AllTrackedAllKept(orders: seq<Order>, resolve: Resolver)
    requires forall i :: 0 <= i < |orders| ==> IsTracked(orders[i])
    ensures |Aggregate(orders, resolve)| == |orders|
    ensures forall i :: 0 <= i < |orders| ==>
              Some(Aggregate(orders, resolve)[i]) == RecordFor(orders[i], resolve)
    decreases |orders|
  {
    if orders != [] {
      var head := RecordFor(orders[0], resolve);
      AllTrackedAllKept(orders[1..], resolve);
      assert RowPerOrder([head.value], [orders[0]], resolve);
      RowPerOrderConcat([head.value], [orders[0]], Aggregate(orders[1..], resolve), orders[1..], resolve);
      assert Aggregate(orders, resolve) == [head.value] + Aggregate(orders[1..], resolve);
      assert [orders[0]] + orders[1..] == orders;
    }
  }

  // ---------------------------------------------------------------------
  // The loop as the source writes it
  // ---------------------------------------------------------------------

  /** The inner `for ... of` over an order's fulfillments, stopping at the
      first Correos one (the `break`). */
  method ScanFulfillments(fs: seq<Fulfillment>) returns (found: Option<nat>)
    ensures found == FirstCorreosFulfillment(fs)
  {
    var j := 0;
    while j < |fs|
      invariant 0 <= j <= |fs|
      invariant forall k :: 0 <= k < j ==> !IsCorreosFulfillment(fs[k])
    {
      if IsCorreosFulfillment(fs[j]) {
        return Some(j);
      }
      j := j + 1;
    }
    return None;
  }

  /** Extending the batch by one order extends the rows by that order's row
      and the calls by its lookup. */
  lemma AggregateSnoc(prefix: seq<Order>, o: Order, resolve: Resolver)
    ensures Aggregate(prefix + [o], resolve) == Aggregate(prefix, resolve) + OptionToSeq(RecordFor(o, resolve))
    ensures Lookups(prefix + [o]) == Lookups(prefix) + OptionToSeq(LookupFor(o))
  {
    AggregateAppend(prefix, [o], resolve);
    LookupsAppend(prefix, [o]);
    AggregateSingleton(o, resolve);
    LookupsSingleton(o);
  }

  /** One iteration of the `for ... of` loop: skip a non-COD order, scan
      its fulfillments, and resolve the first Correos one. */
  method ProcessOrder(order: Order, resolve: Resolver)
    returns (row: Option<TrackedRecord>, call: Option<string>)
    ensures row == RecordFor(order, resolve)
    ensures call == LookupFor(order)
  {
    if !IsCod(order) {
      return None, None;
    }
    var found := ScanFulfillments(order.fulfillments);
    if found.None? {
      return None, None;
    }
    var tracking := order.fulfillments[found.value].trackingNumber;
    var outcome := resolve(tracking);
    return Some(BuildRecord(order, tracking, outcome)), Some(tracking);
  }

  /** What one iteration adds to the rows and calls collected so far. */
  lemma ProcessStep(orders: seq<Order>, n: nat, resolve: Resolver)
    requires n < |orders|
    ensures Aggregate(orders[..n + 1], resolve) == Aggregate(orders[..n], resolve) + OptionToSeq(RecordFor(orders[n], resolve))
    ensures Lookups(orders[..n + 1]) == Lookups(orders[..n]) + OptionToSeq(LookupFor(orders[n]))
  {
    assert orders[..n + 1] == orders[..n] + [orders[n]];
    AggregateSnoc(orders[..n], orders[n], resolve);
  }

  /** The `for ... of` loop over the orders, recording each resolver call in
      `calls`. */
  method ProcessOrders(orders: seq<Order>, resolve: Resolver)
    returns (rows: seq<TrackedRecord>, calls: seq<string>)
    ensures rows == Aggregate(orders, resolve)
    ensures calls == Lookups(orders)
  {
    rows := [];
    calls := [];
    for n := 0 to |orders|
      invariant rows == Aggregate(orders[..n], resolve)
      invariant calls == Lookups(orders[..n])
    {
      var row, call := ProcessOrder(orders[n], resolve);
      ProcessStep(orders, n, resolve);
      rows := rows + OptionToSeq(row);
      calls := calls + OptionToSeq(call);
    }
    assert orders[..|orders|] == orders;
  }

  // ---------------------------------------------------------------------
  // The Shopify entry point and connectivity probe
  // ---------------------------------------------------------------------

  /** The Shopify access token and store domain; "" when not configured. */
  datatype ShopifyConfig = ShopifyConfig(accessToken: string, storeDomain: string)

  predicate ShopifyConfigured(c: ShopifyConfig) {
    c.accessToken != "" && c.storeDomain != ""
  }

  const ApiVersion := "2024-04"
  const CredentialsMissing := "Shopify API credentials are not set."

  /** `getShopifyOrdersAndTracking` once the order request has been made:
      missing credentials fail before anything else; a failed order request
      fails the whole batch; otherwise the rows of the returned orders. */
  function OrdersAndTracking(cfg: ShopifyConfig, fetched: Result<seq<Order>, string>, resolve: Resolver)
    : (r: Result<seq<TrackedRecord>, string>)
    ensures !ShopifyConfigured(cfg) ==> r == Failure(CredentialsMissing)
    ensures ShopifyConfigured(cfg) && fetched.Failure? ==> r == Failure(fetched.error)
    ensures ShopifyConfigured(cfg) && fetched.Success? ==>
              r.Success? && |r.value| == |Lookups(fetched.value)| <= |fetched.value|
    ensures ShopifyConfigured(cfg) && fetched.Success? ==> r == Success(Aggregate(fetched.value, resolve))
  {
    if !ShopifyConfigured(cfg) then Failure(CredentialsMissing)
    else
      match fetched
      case Failure(e) => Failure(e)
      case Success(orders) =>
        RowsMatchLookups(orders, resolve);
        Success(Aggregate(orders, resolve))
  }

  /** The address the probe reads: the shop's metadata. */
  function ShopUrl(domain: string): string {
    "https://" + domain + "/admin/api/" + ApiVersion + "/shop.json"
  }

  const ProbeCredentialsMissing := "Shopify API credentials (token or domain) are not set in environment variables."
  const ProbeConnected := "Successfully connected to Shopify API."
  const ProbeTimedOut := "Shopify API connection timed out. Check store domain and network."

  /** The extra detail a failed probe reports, in the order the source tries
      them. */
  datatype ProbeDetail =
    | ErrorsJson(errors: Json)
    | AuthenticationError
    | Unauthorized
    | Forbidden
    | NoDetail

  function DetailOf(status: int, data: Json): (d: ProbeDetail)
    ensures d.ErrorsJson? <==> Truthy(Get(data, "errors"))
    ensures d.ErrorsJson? ==> d.errors == Get(data, "errors")
    ensures d == AuthenticationError <==>
              !Truthy(Get(data, "errors")) && data.JStr? && Contains(data.s, "Authentication_error")
    ensures d == Unauthorized ==> status == 401
    ensures d == Forbidden ==> status == 403
    ensures ((status == 401 || status == 403) && !Truthy(Get(data, "errors"))
             && !(data.JStr? && Contains(data.s, "Authentication_error"))) ==> d != NoDetail
  {
    if Truthy(data) && Truthy(Get(data, "errors")) then ErrorsJson(Get(data, "errors"))
    else if data.JStr? && Contains(data.s, "Authentication_error") then AuthenticationError
    else if status == 401 then Unauthorized
    else if status == 403 then Forbidden
    else NoDetail
  }

  function DetailText(d: ProbeDetail, stringify: Json -> string): string {
    match d
    case ErrorsJson(errors) => " Details: " + stringify(errors)
    case AuthenticationError => " Details: Authentication error. Check API token and scopes."
    case Unauthorized => " Details: Unauthorized. Check API token and scopes."
    case Forbidden => " Details: Forbidden. Check API token permissions/scopes."
    case NoDetail => ""
  }

  /** `testShopifyConnection`, with the shop request as `fetch` and
      `JSON.stringify` as `stringify`: success exactly when the request
      returned without error; without credentials no request is made. */
  function ProbeShopify(cfg: ShopifyConfig, fetch: string -> Outcome, stringify: Json -> string)
    : (r: ProbeResult)
    ensures r.success <==> ShopifyConfigured(cfg) && fetch(ShopUrl(cfg.storeDomain)).Ok?
    ensures !ShopifyConfigured(cfg) ==> r == ProbeResult(false, ProbeCredentialsMissing)
    ensures ShopifyConfigured(cfg) && fetch(ShopUrl(cfg.storeDomain)).ErrorStatus? ==>
              var o := fetch(ShopUrl(cfg.storeDomain));
              var prefix := "Shopify API request failed: " + IntToString(o.status) + ".";
              prefix <= r.message
              && r.message == prefix + DetailText(DetailOf(o.status, o.data), stringify)
    ensures ShopifyConfigured(cfg) && fetch(ShopUrl(cfg.storeDomain)).Ok? ==> r.message == ProbeConnected
    ensures ShopifyConfigured(cfg) && fetch(ShopUrl(cfg.storeDomain)).Transport? ==>
              var o := fetch(ShopUrl(cfg.storeDomain));
              (o.code == TimeoutCode ==> r.message == ProbeTimedOut)
              && (o.code != TimeoutCode ==> r.message == "Shopify connection test failed: " + o.message)
  {
    if !ShopifyConfigured(cfg) then ProbeResult(false, ProbeCredentialsMissing)
    else
      match fetch(ShopUrl(cfg.storeDomain))
      case Ok(_) => ProbeResult(true, ProbeConnected)
      case ErrorStatus(status, data) =>
        ProbeResult(false, "Shopify API request failed: " + IntToString(status) + "."
                           + DetailText(DetailOf(status, data), stringify))
      case Transport(_, code, message) =>
        if code == TimeoutCode then ProbeResult(false, ProbeTimedOut)
        else ProbeResult(false, "Shopify connection test failed: " + message)
  }
}

=== FILE: status_map.dfy ===
/** The Correos status classifier of shopify.js (`mapCorreosStatus`): an
    ordered list of keyword rules over the upper-cased carrier phrase, the
    first rule with a keyword in the phrase deciding the dashboard status. */
module StatusMap {
  import opened Wrappers
  import opened Text

  const Delivered := "Delivered"
  const InTransit := "In Transit"
  const Returned := "Returned"
  const UnknownStatus := "Unknown"

  /** One rule: a phrase containing any of `keywords` is given `status`. */
  datatype Rule = Rule(keywords: seq<string>, status: string)

  const DeliveredRule := Rule(["ENTREGADO"], Delivered)

  const TransitRule := Rule(["EN REPARTO", "EN PROCESO DE ENTREGA", "ADMITIDO",
                             "EN OFICINA DE CAMBIO", "LLEGADA A LA OFICINA DE ENTREGA",
                             "SALIDA DE OFICINA DE CAMBIO"], InTransit)

  const ReturnedRule := Rule(["DEVUELTO", "NO ENTREGADO", "RETORNADO", "ENTREGA FALLIDA"], Returned)

  /** In-transit synonyms checked only after the returned keywords. */
  const LateTransitRule := Rule(["EN TRÁNSITO", "EN CAMINO", "EN DISTRIBUCIÓN"], InTransit)

  /** The rules in the order the classifier tries them. */
  const Rules: seq<Rule> := [DeliveredRule, TransitRule, ReturnedRule, LateTransitRule]

  /** Some keyword of the list occurs in `text`. */
  predicate Matches(rule: Rule, text: string) {
    exists k :: 0 <= k < |rule.keywords| && Contains(text, rule.keywords[k])
  }

  /** Every keyword is at least eight characters long. */
  lemma KeywordsAreLong()
    ensures forall j, k :: 0 <= j < |Rules| && 0 <= k < |Rules[j].keywords| ==> |Rules[j].keywords[k]| >= 8
  {
  }

  /** A phrase shorter than every keyword matches no rule. */
  lemma ShortPhraseMatchesNothing(text: string)
    requires |text| < 8
    ensures forall j :: 0 <= j < |Rules| ==> !Matches(Rules[j], text)
  {
    KeywordsAreLong();
    forall j, k | 0 <= j < |Rules| && 0 <= k < |Rules[j].keywords|
      ensures !Contains(text, Rules[j].keywords[k])
    {
      if Contains(text, Rules[j].keywords[k]) {
        var i := ContainsImpliesOccurs(text, Rules[j].keywords[k]);
      }
    }
  }

  /** The position of the first rule that matches `text`, if any. */
  function FirstMatching(rules: seq<Rule>, text: string): (r: Option<nat>)
    ensures r.Some? ==> r.value < |rules| && Matches(rules[r.value], text)
    ensures r.Some? ==> forall k :: 0 <= k < r.value ==> !Matches(rules[k], text)
    ensures r.None? ==> forall k :: 0 <= k < |rules| ==> !Matches(rules[k], text)
  {
    if rules == [] then None
    else if Matches(rules[0], text) then Some(0)
    else
      match FirstMatching(rules[1..], text)
      case None => None
      case Some(j) => Some(j + 1)
  }

  /** `mapCorreosStatus`: no phrase gives "Unknown"; otherwise the label of the
      first matching rule, or the phrase itself, unchanged, when no rule
      matches. */
  function Classify(phrase: Option<string>): (r: string)
    ensures r == UnknownStatus <==> (phrase.None? || phrase.value == "" || phrase.value == UnknownStatus)
    ensures phrase.Some? && phrase.value != "" ==>
              r in {Delivered, InTransit, Returned} || r == phrase.value
    ensures r != ""
  {
    if phrase.None? || phrase.value == "" then UnknownStatus
    else
      assert phrase.value == UnknownStatus ==> FirstMatching(Rules, Upper(phrase.value)).None? by {
        if phrase.value == UnknownStatus {
          ShortPhraseMatchesNothing(Upper(phrase.value));
        }
      }
      match FirstMatching(Rules, Upper(phrase.value))
      case Some(k) => Rules[k].status
      case None => phrase.value
  }

  /** The classifier exactly as the source spells it out: nested keyword
      tests in a fixed order. */
  function ClassifyAsWritten(phrase: Option<string>): string {
    if phrase.None? || phrase.value == "" then "Unknown"
    else
      var status := Upper(phrase.value);
      if Contains(status, "ENTREGADO") then "Delivered"
      else if Contains(status, "EN REPARTO") || Contains(status, "EN PROCESO DE ENTREGA")
              || Contains(status, "ADMITIDO") || Contains(status, "EN OFICINA DE CAMBIO")
              || Contains(status, "LLEGADA A LA OFICINA DE ENTREGA")
              || Contains(status, "SALIDA DE OFICINA DE CAMBIO") then "In Transit"
      else if Contains(status, "DEVUELTO") || Contains(status, "NO ENTREGADO")
              || Contains(status, "RETORNADO") || Contains(status, "ENTREGA FALLIDA") then "Returned"
      else if Contains(status, "EN TRÁNSITO") || Contains(status, "EN CAMINO")
              || Contains(status, "EN DISTRIBUCIÓN") then "In Transit"
      else phrase.value
  }

  lemma MatchesDeliveredRule(u: string)
    ensures Matches(DeliveredRule, u) <==> Contains(u, "ENTREGADO")
  {
    var ks := DeliveredRule.keywords;
    assert ks[0] == "ENTREGADO";
  }

  lemma MatchesTransitRule(u: string)
    ensures Matches(TransitRule, u) <==>
              (Contains(u, "EN REPARTO") || Contains(u, "EN PROCESO DE ENTREGA")
               || Contains(u, "ADMITIDO") || Contains(u, "EN OFICINA DE CAMBIO")
               || Contains(u, "LLEGADA A LA OFICINA DE ENTREGA")
               || Contains(u, "SALIDA DE OFICINA DE CAMBIO"))
  {
    var ks := TransitRule.keywords;
    assert ks[0] == "EN REPARTO" && ks[1] == "EN PROCESO DE ENTREGA" && ks[2] == "ADMITIDO";
    assert ks[3] == "EN OFICINA DE CAMBIO" && ks[4] == "LLEGADA A LA OFICINA DE ENTREGA";
    assert ks[5] == "SALIDA DE OFICINA DE CAMBIO";
  }

  lemma MatchesReturnedRule(u: string)
    ensures Matches(ReturnedRule, u) <==>
              (Contains(u, "DEVUELTO") || Contains(u, "NO ENTREGADO")
               || Contains(u, "RETORNADO") || Contains(u, "ENTREGA FALLIDA"))
  {
    var ks := ReturnedRule.keywords;
    assert ks[0] == "DEVUELTO" && ks[1] == "NO ENTREGADO" && ks[2] == "RETORNADO" && ks[3] == "ENTREGA FALLIDA";
  }

  lemma MatchesLateTransitRule(u: string)
    ensures Matches(LateTransitRule, u) <==>
              (Contains(u, "EN TRÁNSITO") || Contains(u, "EN CAMINO") || Contains(u, "EN DISTRIBUCIÓN"))
  {
    var ks := LateTransitRule.keywords;
    assert ks[0] == "EN TRÁNSITO" && ks[1] == "EN CAMINO" && ks[2] == "EN DISTRIBUCIÓN";
  }

  /** The rule-list classifier and the spelled-out one agree on every
      phrase. */
  lemma ClassifyAgreesWithAsWritten(phrase: Option<string>)
    ensures Classify(phrase) == ClassifyAsWritten(phrase)
  {
    if phrase.Some? && phrase.value != "" {
      var u := Upper(phrase.value);
      MatchesDeliveredRule(u);
      MatchesTransitRule(u);
      MatchesReturnedRule(u);
      MatchesLateTransitRule(u);
      assert Rules[0] == DeliveredRule && Rules[1] == TransitRule;
      assert Rules[2] == ReturnedRule && Rules[3] == LateTransitRule;
    }
  }

  /** Any phrase whose upper-case form contains "ENTREGADO" is Delivered,
      whatever else it contains. */
  lemma DeliveredWins(phrase: string)
    requires Contains(Upper(phrase), "ENTREGADO")
    ensures Classify(Some(phrase)) == Delivered
  {
    MatchesDeliveredRule(Upper(phrase));
    assert Rules[0] == DeliveredRule;
  }

  lemma NoEntregadoContainsEntregado(u: string)
    ensures Contains(u, "NO ENTREGADO") ==> Contains(u, "ENTREGADO")
  {
    if Contains(u, "NO ENTREGADO") {
      assert "NO ENTREGADO" == "NO " + "ENTREGADO";
      ContainsSuffixOfKeyword(u, "NO ", "ENTREGADO");
    }
  }

  /** "NO ENTREGADO" is listed among the returned keywords but can never
      select Returned: every phrase containing it contains "ENTREGADO" and
      is classified Delivered first. */
  lemma NoEntregadoIsDelivered(phrase: string)
    requires Contains(Upper(phrase), "NO ENTREGADO")
    ensures Classify(Some(phrase)) == Delivered
  {
    NoEntregadoContainsEntregado(Upper(phrase));
    DeliveredWins(phrase);
  }

  /** A Returned classification always comes from "DEVUELTO", "RETORNADO" or
      "ENTREGA FALLIDA", in a phrase with no delivered or early in-transit
      keyword, unless the carrier's phrase was literally "Returned" and
      passed through unmatched. */
  lemma ReturnedCharacterised(phrase: string)
    requires Classify(Some(phrase)) == Returned
    requires phrase != Returned
    ensures var u := Upper(phrase);
            && !Contains(u, "ENTREGADO")
            && !Matches(TransitRule, u)
            && (Contains(u, "DEVUELTO") || Contains(u, "RETORNADO") || Contains(u, "ENTREGA FALLIDA"))
  {
    var u := Upper(phrase);
    ClassifyAgreesWithAsWritten(Some(phrase));
    MatchesTransitRule(u);
    NoEntregadoContainsEntregado(u);
  }

  /** An early in-transit keyword beats every returned keyword. */
  lemma TransitBeatsReturned(phrase: string)
    requires !Contains(Upper(phrase), "ENTREGADO")
    requires Matches(TransitRule, Upper(phrase))
    ensures Classify(Some(phrase)) == InTransit
  {
    MatchesDeliveredRule(Upper(phrase));
    assert Rules[0] == DeliveredRule && Rules[1] == TransitRule;
  }

  /** A returned keyword beats the late in-transit synonyms. */
  lemma ReturnedBeatsLateTransit(phrase: string)
    requires !Contains(Upper(phrase), "ENTREGADO")
    requires !Matches(TransitRule, Upper(phrase))
    requires Matches(ReturnedRule, Upper(phrase))
    ensures Classify(Some(phrase)) == Returned
  {
    MatchesDeliveredRule(Upper(phrase));
    assert Rules[0] == DeliveredRule && Rules[1] == TransitRule && Rules[2] == ReturnedRule;
  }

  /** A phrase matching no keyword comes back unchanged. */
  lemma UnmatchedIsVerbatim(phrase: string)
    requires phrase != ""
    requires forall k :: 0 <= k < |Rules| ==> !Matches(Rules[k], Upper(phrase))
    ensures Classify(Some(phrase)) == phrase
  {
  }

  /** Matching ignores case: when some rule matches, the phrase and its
      upper-case form get the same status. */
  lemma LabelIgnoresCase(phrase: string)
    requires phrase != ""
    requires FirstMatching(Rules, Upper(phrase)).Some?
    ensures Classify(Some(phrase)) == Classify(Some(Upper(phrase)))
    ensures Classify(Some(phrase)) in {Delivered, InTransit, Returned}
  {
    UpperIdempotent(phrase);
  }
}

=== FILE: text.dfy ===
/** The JavaScript string built-ins the tracker relies on, restated over
    `string` (a sequence of Unicode scalar values): case mapping,
    `includes`, `trim`, decimal rendering of integers, and splitting and
    joining on one separator character. */
module Text {

  // ---------------------------------------------------------------------
  // Case mapping
  // ---------------------------------------------------------------------

  /** Lower-case letters whose upper-case form is the single character 32
      code points below: ASCII a-z and Latin-1 à-þ except the division sign.
      These cover every letter of the Spanish carrier phrases (á, é, í, ó, ú,
      ü, ñ). */
  predicate IsSimpleLower(c: char) {
    ('a' <= c <= 'z') || ('à' <= c <= 'þ' && c != '÷')
  }

  /** Upper-case counterparts of IsSimpleLower: A-Z and À-Þ except the
      multiplication sign. */
  predicate IsSimpleUpper(c: char) {
    ('A' <= c <= 'Z') || ('À' <= c <= 'Þ' && c != '×')
  }

  function UpperChar(c: char): char {
    if IsSimpleLower(c) then (c as int - 32) as char else c
  }

  function LowerChar(c: char): char {
    if IsSimpleUpper(c) then (c as int + 32) as char else c
  }

  /** `s.toUpperCase()` on the letters IsSimpleLower covers; every other
      character is left as it is. */
  function Upper(s: string): string {
    seq(|s|, i requires 0 <= i < |s| => UpperChar(s[i]))
  }

  /** `s.toLowerCase()` on the letters IsSimpleUpper covers. */
  function Lower(s: string): string {
    seq(|s|, i requires 0 <= i < |s| => LowerChar(s[i]))
  }

  /** Upper-casing is idempotent: an upper-cased phrase is its own
      upper-case form, so classifying it again sees the same text. */
  lemma UpperIdempotent(s: string)
    ensures Upper(Upper(s)) == Upper(s)
  {
    var u := Upper(s);
    forall i | 0 <= i < |u|
      ensures UpperChar(u[i]) == u[i]
    {
      assert !IsSimpleLower(UpperChar(s[i]));
    }
  }

  // ---------------------------------------------------------------------
  // includes
  // ---------------------------------------------------------------------

  /** `sub` occurs in `s` starting at index `i`. */
  predicate OccursAt(s: string, sub: string, i: int) {
    0 <= i && i + |sub| <= |s| && s[i..i + |sub|] == sub
  }

  /** `s.includes(sub)`, scanning from the left. */
  predicate Contains(s: string, sub: string)
    decreases |s|
  {
    if sub <= s then true
    else if |s| == 0 then false
    else Contains(s[1..], sub)
  }

  /** An occurrence at any position is found by the scan. */
  lemma {:induction false} OccursImpliesContains(s: string, sub: string, i: int)
    requires OccursAt(s, sub, i)
    ensures Contains(s, sub)
    decreases i
  {
    if i == 0 {
      assert s[..|sub|] == sub;
    } else if !(sub <= s) {
      assert s[1..][i - 1..i - 1 + |sub|] == s[i..i + |sub|];
      OccursImpliesContains(s[1..], sub, i - 1);
    }
  }

  /** What the scan finds is an occurrence at some position. */
  lemma {:induction false} ContainsImpliesOccurs(s: string, sub: string) returns (i: int)
    requires Contains(s, sub)
    ensures OccursAt(s, sub, i)
    decreases |s|
  {
    if sub <= s {
      i := 0;
    } else {
      var j := ContainsImpliesOccurs(s[1..], sub);
      assert s[j + 1..j + 1 + |sub|] == s[1..][j..j + |sub|];
      i := j + 1;
    }
  }

  /** A text that contains `a + b` contains `b`: a longer keyword that ends in
      a shorter one can never be seen without the shorter one. */
  lemma ContainsSuffixOfKeyword(s: string, a: string, b: string)
    requires Contains(s, a + b)
    ensures Contains(s, b)
  {
    var i := ContainsImpliesOccurs(s, a + b);
    assert s[i + |a|..i + |a| + |b|] == (a + b)[|a|..];
    OccursImpliesContains(s, b, i + |a|);
  }

  /** A text that starts with `sub` contains it. */
  lemma ContainsPrefix(s: string, sub: string, rest: string)
    requires s == sub + rest
    ensures Contains(s, sub)
  {
  }

  // ---------------------------------------------------------------------
  // trim
  // ---------------------------------------------------------------------

  /** The characters `String.prototype.trim` removes: the ECMAScript
      WhiteSpace and LineTerminator code points. */
  predicate IsJsWhitespace(c: char) {
    || c == '\t' || c == '\n' || c == '\U{000B}' || c == '\U{000C}' || c == '\r'
    || c == ' ' || c == '\U{00A0}' || c == '\U{1680}'
    || ('\U{2000}' <= c <= '\U{200A}')
    || c == '\U{2028}' || c == '\U{2029}' || c == '\U{202F}' || c == '\U{205F}'
    || c == '\U{3000}' || c == '\U{FEFF}'
  }

  function TrimStart(s: string): (r: string)
    ensures |r| <= |s| && r == s[|s| - |r|..]
    ensures forall i :: 0 <= i < |s| - |r| ==> IsJsWhitespace(s[i])
    ensures r == [] || !IsJsWhitespace(r[0])
  {
    if |s| > 0 && IsJsWhitespace(s[0]) then
      var r := TrimStart(s[1..]);
      assert s[1..][|s| - 1 - |r|..] == s[|s| - |r|..];
      assert forall i :: 1 <= i < |s| - |r| ==> s[i] == s[1..][i - 1];
      r
    else s
  }

  function TrimEnd(s: string): (r: string)
    ensures |r| <= |s| && r == s[..|r|]
    ensures forall i :: |r| <= i < |s| ==> IsJsWhitespace(s[i])
    ensures r == [] || !IsJsWhitespace(r[|r| - 1])
  {
    if |s| > 0 && IsJsWhitespace(s[|s| - 1]) then
      var r := TrimEnd(s[..|s| - 1]);
      assert s[..|s| - 1][..|r|] == s[..|r|];
      assert forall i :: |r| <= i < |s| - 1 ==> s[i] == s[..|s| - 1][i];
      r
    else s
  }

  /** `s.trim()`: the longest slice of `s` that neither starts nor ends with
      whitespace, everything cut away being whitespace. */
  function Trim(s: string): (r: string)
    ensures exists i :: (OccursAt(s, r, i)
                         && (forall k :: 0 <= k < i ==> IsJsWhitespace(s[k]))
                         && (forall k :: i + |r| <= k < |s| ==> IsJsWhitespace(s[k])))
    ensures r == [] || (!IsJsWhitespace(r[0]) && !IsJsWhitespace(r[|r| - 1]))
  {
    var t := TrimStart(s);
    var r := TrimEnd(t);
    TrimWitness(s, t, r);
    r
  }

  /** The slice `trim` keeps starts where the leading whitespace ends. */
  lemma TrimWitness(s: string, t: string, r: string)
    requires |t| <= |s| && t == s[|s| - |t|..]
    requires forall k :: 0 <= k < |s| - |t| ==> IsJsWhitespace(s[k])
    requires |r| <= |t| && r == t[..|r|]
    requires forall k :: |r| <= k < |t| ==> IsJsWhitespace(t[k])
    ensures OccursAt(s, r, |s| - |t|)
    ensures forall k :: 0 <= k < |s| - |t| ==> IsJsWhitespace(s[k])
    ensures forall k :: |s| - |t| + |r| <= k < |s| ==> IsJsWhitespace(s[k])
  {
    var i := |s| - |t|;
    assert s[i..i + |r|] == r;
    forall k | i + |r| <= k < |s|
      ensures IsJsWhitespace(s[k])
    {
      assert s[k] == t[k - i];
    }
  }

  /** A string that neither starts nor ends with whitespace is left alone. */
  lemma TrimFixed(s: string)
    requires s == [] || (!IsJsWhitespace(s[0]) && !IsJsWhitespace(s[|s| - 1]))
    ensures Trim(s) == s
  {
  }

  /** A string made only of whitespace loses all of it from the front. */
  lemma {:induction false} TrimStartBlank(s: string)
    requires forall i :: 0 <= i < |s| ==> IsJsWhitespace(s[i])
    ensures TrimStart(s) == ""
    decreases |s|
  {
    if |s| > 0 {
      assert IsJsWhitespace(s[0]);
      TrimStartBlank(s[1..]);
    }
  }

  /** A string made only of whitespace trims to the empty string. */
  lemma TrimBlank(s: string)
    requires forall i :: 0 <= i < |s| ==> IsJsWhitespace(s[i])
    ensures Trim(s) == ""
  {
    TrimStartBlank(s);
  }

  // ---------------------------------------------------------------------
  // Decimal rendering
  // ---------------------------------------------------------------------

  function DigitChar(d: nat): char
    requires d < 10
  {
    ('0' as int + d) as char
  }

  predicate IsDigitChar(c: char) {
    '0' <= c <= '9'
  }

  /** The decimal text of a natural number, as template interpolation
      `${n}` writes it: no sign, no leading zeros. */
  function NatToString(n: nat): (r: string)
    ensures |r| > 0 && forall i :: 0 <= i < |r| ==> IsDigitChar(r[i])
    ensures |r| > 1 ==> r[0] != '0'
  {
    if n < 10 then [DigitChar(n)] else NatToString(n / 10) + [DigitChar(n % 10)]
  }

  /** The decimal text of an integer, with a leading '-' when negative. */
  function IntToString(n: int): string {
    if n < 0 then "-" + NatToString(-n) else NatToString(n)
  }

  function DigitValue(c: char): nat
    requires IsDigitChar(c)
  {
    c as int - '0' as int
  }

  /** Reads a string of decimal digits back as a number. */
  function ParseDigits(s: string): nat
    requires forall i :: 0 <= i < |s| ==> IsDigitChar(s[i])
  {
    if s == [] then 0
    else ParseDigits(s[..|s| - 1]) * 10 + DigitValue(s[|s| - 1])
  }

  /** Rendering a number and reading it back gives the number. */
  lemma {:induction false} NatToStringRoundTrip(n: nat)
    ensures ParseDigits(NatToString(n)) == n
  {
    if n >= 10 {
      NatToStringRoundTrip(n / 10);
      var s := NatToString(n);
      assert s[..|s| - 1] == NatToString(n / 10);
    }
  }

  // ---------------------------------------------------------------------
  // Splitting and joining on one separator character
  // ---------------------------------------------------------------------

  /** The index of the first `c` in `s`. */
  function IndexOf(s: string, c: char): (i: nat)
    requires c in s
    ensures i < |s| && s[i] == c && c !in s[..i]
  {
    if s[0] == c then 0 else 1 + IndexOf(s[1..], c)
  }

  /** The first separator after a separator-free prefix is the one that
      ends it. */
  lemma {:induction false} IndexOfAfterPrefix(p: string, sep: char, rest: string)
    requires sep !in p
    ensures IndexOf(p + [sep] + rest, sep) == |p|
    decreases |p|
  {
    if |p| > 0 {
      assert (p + [sep] + rest)[1..] == p[1..] + [sep] + rest;
      IndexOfAfterPrefix(p[1..], sep, rest);
    }
  }

  /** `parts.join(sep)` for a non-empty list of parts. */
  function Join(parts: seq<string>, sep: char): string
    requires |parts| > 0
  {
    if |parts| == 1 then parts[0] else parts[0] + [sep] + Join(parts[1..], sep)
  }

  /** `s.split(sep)`: always at least one piece, none containing `sep`. */
  function Split(s: string, sep: char): (parts: seq<string>)
    ensures |parts| > 0
    ensures forall k :: 0 <= k < |parts| ==> sep !in parts[k]
    decreases |s|
  {
    if sep !in s then [s]
    else
      var i := IndexOf(s, sep);
      [s[..i]] + Split(s[i + 1..], sep)
  }

  /** A join starts with its first part. */
  lemma {:induction false} JoinStartsWithFirst(parts: seq<string>, sep: char)
    requires |parts| > 0
    ensures parts[0] <= Join(parts, sep)
  {
  }

  /** Splitting undoes joining when no part holds the separator. */
  lemma {:induction false} SplitJoin(parts: seq<string>, sep: char)
    requires |parts| > 0
    requires forall k :: 0 <= k < |parts| ==> sep !in parts[k]
    ensures Split(Join(parts, sep), sep) == parts
    decreases |parts|
  {
    if |parts| > 1 {
      var s := Join(parts, sep);
      var rest := Join(parts[1..], sep);
      assert s == parts[0] + [sep] + rest;
      IndexOfAfterPrefix(parts[0], sep, rest);
      var i := IndexOf(s, sep);
      assert s[..i] == parts[0];
      assert s[i + 1..] == rest;
      SplitJoin(parts[1..], sep);
    }
  }

  /** Two distinct integers never render to the same text, so a message
      that embeds a status code names exactly one code. */
  lemma IntToStringInjective(a: int, b: int)
    ensures IntToString(a) == IntToString(b) ==> a == b
  {
    if IntToString(a) == IntToString(b) {
      if a >= 0 && b >= 0 {
        NatToStringRoundTrip(a);
        NatToStringRoundTrip(b);
      } else if a < 0 && b < 0 {
        assert NatToString(-a) == IntToString(a)[1..];
        NatToStringRoundTrip(-a);
        NatToStringRoundTrip(-b);
      }
    }
  }
}

=== FILE: wrappers.dfy ===
/** Failure-compatible wrappers shared by the tracker model: an optional
    value, and a result that carries either a value or an error. */
module Wrappers {

  datatype Option<+T> = None | Some(value: T)

  /** The outcome of an operation that the original code either returns from
      or raises out of: Success carries the returned value, Failure the error. */
  datatype Result<+R, +E> = Success(value: R) | Failure(error: E)
}
